=== FILE: README.md ===
# Safe2gether backend core in Dafny

This project models the rules that sit inside the CRUD services of the
Safe2gether backend, a FastAPI application that stores its data in Supabase
through PostgREST. The model covers:

- areas of interest: `create_area` repairs a bad frequency or radius, while
  `update_area` refuses them. `calcular_nivel_riesgo` filters the report
  listing by age, coordinates and distance, tallies the kept reports by
  category and classifies their number as `Bajo`, `Medio` or `Alto`;
- reports: creation with a default truthfulness percentage. A partial update
  recomputes `veracidad_porcentaje` from the vote counters;
- followers: no self-follow, no duplicate pair, and `unfollow` with its
  404 when the pair is missing;
- community notes and comments: the text is stripped, and a blank text is
  refused;
- users: the case-insensitive duplicate check done with PostgREST `ilike`;
- the comma-separated id lists of the two bulk endpoints;
- `table_url` and `supabase_headers`;
- the request models (`ReporteCreate`, `AreaInteresCreate`, ...): their
  required fields and their defaults.

The database is an abstract keyed store, `Store.Table`: a map from id to
row plus the next id to assign. A row is a `map<string, Value>` holding the
JSON values PostgREST exchanges. Every service operation is a pure function
from a table and a request to a `Step`, which holds the new table and either
the answer or an HTTP status. On every error the table is returned unchanged,
so "nothing is written" is part of the contracts. A Python exception that the
service does not catch becomes the status 500 (`InternalError`).

Modules, one per file:

| file | module | source |
|---|---|---|
| wrappers.dfy | `Wrappers` | `Option`, `Result` and the HTTP statuses |
| text.dfy | `Text` | `str.strip`, `str.split`, `str.isdigit`, decimal digits |
| rows.dfy | `Rows` | JSON values, the allowed-key filters, pydantic field reading |
| store.dfy | `Store` | the repositories as a keyed store |
| seqs.dfy | `Seqs` | sequence facts used by the inductive proofs |
| supabase_client.dfy | `SupabaseClient` | `app/clients/supabase_client.py` |
| id_list.dfy | `IdList` | the bulk endpoints of the users and attachments controllers |
| reporte.dfy | `ReporteModel` | `app/models/reporte.py` |
| reportes_service.dfy | `ReportesService` | `app/services/reportes_service.py` |
| area_interes.dfy | `AreaInteresModel` | `app/models/area_interes.py` |
| areas_interes_service.dfy | `AreasInteresService` | `app/services/areas_interes_service.py` (CRUD) |
| risk_scoring.dfy | `RiskScoring` | `calcular_nivel_riesgo` |
| seguidores_service.dfy | `SeguidoresService` | `app/services/seguidores_service.py` |
| community_entries.dfy | `CommunityEntries` | the shared shape of notes and comments |
| notas_comunidad_service.dfy | `NotasComunidadService` | `app/services/notas_comunidad_service.py` |
| comentarios_service.dfy | `ComentariosService` | `app/services/comentarios_service.py` |
| users_service.dfy | `UsersService` | `app/services/users_service.py` |

Some parts of the program are parameters of the model rather than code in it:

- the Haversine distance is `dist`;
- `datetime.fromisoformat` is `parse`;
- the current time is `now`;
- Unicode case folding, as PostgreSQL's `ilike` applies it, is `fold`;
- a service call that may raise is `fetch`.

## Model

| member | source | states |
|---|---|---|
| SupabaseClient.Headers | app/clients/supabase_client.py:8-15 | exactly four headers: `apikey` is the key, `Authorization` is `Bearer ` followed by the key, JSON content type, `Prefer: return=representation` |
| SupabaseClient.BearerCarriesApiKey | app/clients/supabase_client.py:11-12 | the bearer token after `Bearer ` is the apikey itself |
| SupabaseClient.TableUrlParts | app/clients/supabase_client.py:18-27 | the URL is the base with all trailing `/` removed, `/rest/v1/`, and the table name, or the default table when the name is missing or empty; the base part never ends in `/` |
| SupabaseClient.TableUrl | app/clients/supabase_client.py:18-27 | `table_url`: the URL ends in `/rest/v1/` followed by the table name, or by the default table when the name is missing or empty |
| SupabaseClient.TableUrlIgnoresTrailingSlashes | app/clients/supabase_client.py:25 | any number of trailing slashes on the base URL gives the same URL |
| SupabaseClient.TableUrlExample | app/config.py:12 | with no table, or an empty one, the URL names the configured default table `Usuarios` |
| IdList.Accepts | app/controllers/users_controller.py:56 | the filter `x.strip().isdigit()`: the piece, stripped of Python's whitespace, is a non-empty run of digits |
| IdList.PieceValue | app/controllers/users_controller.py:56 | `int(x)` of an accepted piece that does not raise: the value of its digits |
| IdList.Raises | app/controllers/users_controller.py:56 | `int(x)` raises on an accepted piece exactly when it has more than 4300 digits or is padded with one of U+001C to U+001F, which `strip()` removes but `int()` does not skip |
| IdList.ParsePieces | app/controllers/users_controller.py:56 | when the comprehension does not raise, the id list is never longer than the list of comma pieces |
| IdList.ParsePiecesFails | app/controllers/users_controller.py:56 | the comprehension raises exactly when some accepted piece makes `int()` raise, wherever it stands: more than 4300 digits, or padding of U+001C to U+001F |
| IdList.ParseIds | app/controllers/adjunto_controller.py:50 | parsing `ids` raises exactly when one of its comma pieces is accepted but refused by `int()`; otherwise the list is never longer than the pieces |
| IdList.ParsePiecesAppend | app/controllers/users_controller.py:56 | parsing distributes over concatenation of pieces: it succeeds exactly when both halves do, and then accepted pieces keep their order and repeats |
| IdList.ParsePiecesMembers | app/controllers/users_controller.py:56 | when the parse succeeds, an id is in the list exactly when some piece, stripped, is all digits and has that value |
| IdList.EmptyIds | app/controllers/adjunto_controller.py:48-51 | an empty `ids` parses, and gives the service an empty list |
| IdList.OneDigitAccepted | app/controllers/users_controller.py:56 | a single digit is kept, with its value |
| IdList.PaddedDigitAccepted | app/controllers/users_controller.py:56 | surrounding whitespace is tolerated: ` 7 ` gives 7 |
| IdList.SignedRejected | app/controllers/users_controller.py:56 | a signed number such as `-3` is dropped |
| IdList.LetterRejected | app/controllers/users_controller.py:56 | a letter is dropped |
| IdList.ExampleSplit | app/controllers/users_controller.py:56 | the query splits at every comma and keeps empty pieces |
| IdList.DecimalIsAccepted | app/controllers/users_controller.py:56 | the decimal rendering of every natural number is accepted and reads back as that number; `int()` raises on it exactly when it has more than 4300 digits |
| IdList.ParseDecimals | app/controllers/users_controller.py:56 | the pieces of rendered ids parse back to exactly those ids when each has at most 4300 digits, and the parse raises otherwise |
| IdList.ParseRender | app/controllers/adjunto_controller.py:50 | round trip: the list a client writes as `1,2,3` is parsed back exactly, in order and with repeats, as long as no id has more than 4300 digits; otherwise parsing raises |
| IdList.LongPieceRefused | app/controllers/users_controller.py:56 | a piece of 4301 zeros passes the digit filter, but `int()` refuses it, so the whole list fails to parse |
| IdList.SeparatorPaddingRefused | app/controllers/adjunto_controller.py:50-53 | a digit padded with U+001C passes the filter, but `int()` refuses it, so the whole list fails to parse |
| IdList.BulkFetch | app/controllers/adjunto_controller.py:48-53 | 400 when parsing `ids` raises; otherwise the service receives the parsed ids, its answer is returned, and an exception from it becomes 400 |
| IdList.BulkUsers | app/controllers/users_controller.py:54-60 | `bulk_users` answers 400 when the parse or the call raises, and otherwise returns what the users service gives for the parsed ids |
| IdList.BulkUsersAlwaysRejected | app/controllers/users_controller.py:57 | the users service has no `get_users_by_ids`, so every request is answered 400 |
| IdList.AdjuntosByReporteIds | app/controllers/adjunto_controller.py:47-53 | `list_adjuntos_by_reporte_ids` answers 400 when the parse or the call raises, and otherwise returns what the attachments service gives for the parsed ids |
| ReporteModel.ParseReporteCreate | app/models/reporte.py:5-18 | a valid body has `user_id` and `titulo`; a missing percentage is 0, missing counters are 0, a missing district is `None` |
| ReporteModel.DumpReporteCreate | app/models/reporte.py:5-18 | the dump holds every field of the model, nulls included |
| ReporteModel.ReporteCreateRoundTrip | app/models/reporte.py:5-18 | validating the dump of a report gives the report back |
| ReporteModel.ReporteCreateDefaults | app/models/reporte.py:5-18 | a body with only `user_id` and `titulo` validates, with every other field at its default |
| ReporteModel.ReporteCreateRequiredFields | app/models/reporte.py:6-7 | a body without `user_id` or without `titulo` is refused with 422 |
| ReporteModel.ParseReporteUpdate | app/models/reporte.py:29-40 | the counters read are those sent, and a missing percentage stays `None` |
| ReporteModel.ReporteUpdateDefaults | app/models/reporte.py:29-40 | an empty body validates with every field `None` |
| ReporteModel.DumpReporteUpdate | app/models/reporte.py:29-40 | the dump holds every field of the update, and `None` as null |
| ReporteModel.ReporteUpdateRoundTrip | app/models/reporte.py:29-40 | validating the dump of an update gives the update back |
| ReporteModel.OutCounter | app/models/reporte.py:21-26 | a `ReporteOut` counter accepts a stored null as `None` and defaults a missing one to 0 |
| ReportesService.Percentage | app/services/reportes_service.py:51-52 | with non-negative counters the percentage is in [0, 100]; it is the share of upvotes times 100, or 0.0 without votes |
| ReportesService.PercentageExtremes | app/services/reportes_service.py:51-52 | only upvotes give 100 and no upvotes give 0 |
| ReportesService.CreateFields | app/services/reportes_service.py:21-26 | only the allowed columns are kept; the percentage is kept when sent, else it is 0.0 |
| ReportesService.CreateReporte | app/services/reportes_service.py:19-28 | creation always succeeds and adds exactly one row under the new id |
| ReportesService.CreateReporteColumns | app/services/reportes_service.py:21-23 | the stored report has exactly the allowed columns and the id |
| ReportesService.CreateReporteStores | app/services/reportes_service.py:24-26 | the author, title and counters are stored as sent; the percentage is stored as sent, or 0.0 when not sent |
| ReportesService.CreateIgnoresDistrito | app/services/reportes_service.py:21-23 | two payloads that differ only in `distrito` create the same row |
| ReportesService.CreateFieldsIgnore | app/services/reportes_service.py:21-23 | a column outside the allowed set never affects what is stored |
| ReportesService.GetReporte | app/services/reportes_service.py:30-34 | the stored report, or 404 exactly when the id is missing |
| ReportesService.UpdateFields | app/services/reportes_service.py:37-52 | the non-null allowed columns are written; when counters come without a percentage, the percentage is recomputed from the counters sent, or else the stored ones; a percentage that is sent is written as sent |
| ReportesService.DumpCountersTyped | app/models/reporte.py:39-40 | both counters of an update dump are integers or null |
| ReportesService.UpdateReporte | app/services/reportes_service.py:36-60 | 404 with no write exactly when the report is missing; otherwise only that row changes: it becomes the stored row patched with `UpdateFields`, so columns outside the allowed set keep their values |
| ReportesService.UpdateKeepsAuthorAndDistrict | app/services/reportes_service.py:37-39 | an update never changes `user_id` or `distrito` |
| ReportesService.UpdateSkipsNulls | app/services/reportes_service.py:38-45 | every column the update leaves null, other than the percentage, keeps its stored value; so does the percentage when it is neither sent nor recomputed |
| ReportesService.UpdateKeepsPercentageConsistent | app/services/reportes_service.py:41-52 | after an update with counters and no percentage, the stored percentage matches the stored counters, a null stored counter counting as 0 |
| ReportesService.UpdateExplicitPercentage | app/services/reportes_service.py:44-45 | a percentage the client sends is stored as sent, even alongside counters |
| AreaInteresModel.ParseAreaCreate | app/models/area_interes.py:5-12 | a valid body has `user_id`, `nombre`, `lat` and `lon`; the radius defaults to 1000, the frequency to `semanal`, `activo` to true |
| AreaInteresModel.DumpAreaCreate | app/models/area_interes.py:5-12 | the dump holds exactly the seven fields of the model |
| AreaInteresModel.AreaCreateRoundTrip | app/models/area_interes.py:5-12 | validating the dump of an area gives the area back |
| AreaInteresModel.AreaCreateDefaults | app/models/area_interes.py:10-12 | a body with only the four required fields takes every default |
| AreaInteresModel.AreaCreateNeedsCoordinates | app/models/area_interes.py:8-9 | a body without `lat` or `lon` is refused with 422 |
| AreaInteresModel.ParseAreaUpdate | app/models/area_interes.py:21-28 | the radius and the frequency read are those sent |
| AreaInteresModel.DumpAreaUpdate | app/models/area_interes.py:21-28 | the dump holds exactly the fields of the update, and `None` as null |
| AreaInteresModel.AreaUpdateRoundTrip | app/models/area_interes.py:21-28 | validating the dump of an update gives the update back |
| AreaInteresModel.AreaUpdateDefaults | app/models/area_interes.py:21-28 | an empty body validates with every field `None` |
| AreasInteresService.CreateFrequency | app/services/areas_interes_service.py:34-35 | the stored frequency is always `diario` or `semanal`: the one sent if known, else `semanal` |
| AreasInteresService.CreateRadius | app/services/areas_interes_service.py:37-38 | the stored radius is always positive: the one sent if positive, else 1000 |
| AreasInteresService.Repaired | app/services/areas_interes_service.py:34-38 | only the frequency and the radius are changed by the repair |
| AreasInteresService.CreateFields | app/services/areas_interes_service.py:28-45 | a null radius raises (500) before the name is checked; a name blank after strip is refused with 422; otherwise the allowed columns are kept, with the name as sent and the repaired frequency and radius |
| AreasInteresService.CreateArea | app/services/areas_interes_service.py:28-48 | an error writes nothing; success adds exactly one row, the repaired payload under the new id |
| AreasInteresService.GetArea | app/services/areas_interes_service.py:50-57 | the stored area, or 404 exactly when the id is missing |
| AreasInteresService.UpdateFields | app/services/areas_interes_service.py:60-62 | the update writes exactly the non-null fields of its dump, with their values as sent |
| AreasInteresService.UpdateArea | app/services/areas_interes_service.py:59-86 | an unknown frequency or a radius of 0 or less is refused with 422 before the row is looked for; a missing area gives 404; no error writes; the row becomes the stored row patched with the non-null fields, so each sent field is written and each omitted one, like every other column, keeps its value |
| AreasInteresService.UpdateKeepsOwner | app/services/areas_interes_service.py:60 | an update never moves an area to another user |
| AreasInteresService.AreasStayValid | app/services/areas_interes_service.py:34-38 | every stored area keeps a known frequency and a positive radius, through creation and update |
| AreasInteresService.CreateKeepsAreasValid | app/services/areas_interes_service.py:34-38 | a created area has a known frequency and a positive radius |
| AreasInteresService.UpdateKeepsAreasValid | app/services/areas_interes_service.py:64-75 | an update cannot give an area an unknown frequency or a radius of 0 or less |
| RiskScoring.Number | app/services/areas_interes_service.py:96-99 | the values the distance accepts as numbers are exactly ints, floats and booleans |
| RiskScoring.RadiusKm | app/services/areas_interes_service.py:156 | the radius in km is the stored metres over 1000, or 1 km when the column is missing; a null radius cannot be divided |
| RiskScoring.Visit | app/services/areas_interes_service.py:132-158 | one report is kept exactly when it is not stale, has both coordinates and lies within the radius; the loop raises when a value the distance reads is not a number |
| RiskScoring.Scan | app/services/areas_interes_service.py:132-158 | the loop succeeds exactly when no report makes it raise; the kept reports are exactly the selected ones of the listing |
| RiskScoring.ScanAppend | app/services/areas_interes_service.py:132-158 | kept reports come in listing order: scanning two listings in turn keeps what each scan keeps, in turn |
| RiskScoring.BoundaryIncluded | app/services/areas_interes_service.py:157 | a report exactly at the radius is kept |
| RiskScoring.UnknownAgeKept | app/services/areas_interes_service.py:134-141 | a timestamp that cannot be parsed, or that carries an offset, never drops the report |
| RiskScoring.Stale | app/services/areas_interes_service.py:133-141 | a report is skipped as too old only when its `created_at` is a non-empty string that parses to a naive time before the cutoff |
| RiskScoring.Category | app/services/areas_interes_service.py:165 | a missing category is `Otro`; a present one, null included, is its own key |
| RiskScoring.DictKey | app/services/areas_interes_service.py:165-166 | the key a category is filed under equals it in Python's sense and holds every number in one representation |
| RiskScoring.DictKeyEq | app/services/areas_interes_service.py:165-166 | two categories share a key exactly when Python finds them equal, so `1`, `1.0` and `True` are counted together |
| RiskScoring.CategoryKeys | app/services/areas_interes_service.py:164-165 | the key of each kept report's category, in order |
| RiskScoring.Tally | app/services/areas_interes_service.py:161-166 | `tipos_delitos`, built report by report: every key it holds has a count of at least 1 |
| RiskScoring.TallyCounts | app/services/areas_interes_service.py:162-166 | `tipos_delitos` counts each category key exactly as often as it occurs among the kept reports, and has no other key |
| RiskScoring.TotalRemove | app/services/areas_interes_service.py:162-166 | the sum of the counts does not depend on the order the keys are taken in |
| RiskScoring.TallyTotal | app/services/areas_interes_service.py:161-166 | the counts of `tipos_delitos` add up to the number of kept reports |
| RiskScoring.Classify | app/services/areas_interes_service.py:168-176 | `Bajo` exactly for 3 or fewer reports, `Medio` exactly for 4 to 10, `Alto` exactly above 10 |
| RiskScoring.ClassifyMonotone | app/services/areas_interes_service.py:168-176 | more reports never lower the level |
| RiskScoring.AssessRisk | app/services/areas_interes_service.py:108-186 | an unknown area is 404; otherwise the answer carries the area and the days, the level of the kept count, and at most 10 listed reports, each of which is selected |
| RiskScoring.AssessRiskSummary | app/services/areas_interes_service.py:161-185 | `total_reportes` is the number of kept reports and the sum of `tipos_delitos`; `reportes_recientes` is the first min(10, total) kept reports, in order |
| SeguidoresService.CreateFields | app/services/seguidores_service.py:26-28 | only the two ids are sent to the store |
| SeguidoresService.CreateSeguidor | app/services/seguidores_service.py:25-49 | a self-follow is refused with 422 and an existing pair with 409, with no write; otherwise exactly that pair is added under a new id |
| SeguidoresService.FollowsIffMatching | app/repositories/seguidores_repository.py:56-67 | `check_if_exists` finds a row exactly when the pair is stored |
| SeguidoresService.CreateKeepsGraphSimple | app/services/seguidores_service.py:30-46 | creation keeps the follow graph free of self-follows and duplicate pairs |
| SeguidoresService.GetSeguidor | app/services/seguidores_service.py:51-55 | the stored relation, or 404 exactly when the id is missing |
| SeguidoresService.UpdateFields | app/services/seguidores_service.py:58-60 | the update sends exactly the ids that are not null |
| SeguidoresService.UpdateSeguidor | app/services/seguidores_service.py:57-76 | an error is 422 exactly when both ids are sent and equal, and 404 otherwise, for a missing row; success patches the row with the sent ids, and an omitted id, like every other column, keeps its stored value |
| SeguidoresService.PartialUpdateAllowsSelfFollow | app/services/seguidores_service.py:62-68 | sending one id is not checked against the other: any relation `x` follows `y` becomes a self-follow when only `seguido_id = x`, or only `seguidor_id = y`, is sent |
| SeguidoresService.UpdateAllowsDuplicatePair | app/services/seguidores_service.py:57-76 | the update does not repeat the existing-pair check of creation: pointing a row at a pair another row holds succeeds and stores the pair twice |
| SeguidoresService.Unfollow | app/services/seguidores_service.py:82-90 | succeeds exactly when the pair is stored; it then deletes exactly the rows of the pair and returns how many there were; otherwise 404 with no write |
| SeguidoresService.UnfollowUndoesFollow | app/repositories/seguidores_repository.py:131-156 | after creating a pair, unfollowing it deletes exactly one row and restores the table as it was |
| CommunityEntries.Column | app/services/notas_comunidad_service.py:24 | the text column is neither the id nor one of the two reference columns |
| CommunityEntries.CreateFields | app/services/notas_comunidad_service.py:24-31 | only the allowed columns of the payload are kept, with the cleaned text in place of the text sent |
| CommunityEntries.CreateFieldsAgree | app/services/notas_comunidad_service.py:24-26 | columns outside the allowed set never affect what creation writes |
| CommunityEntries.CreateEntry | app/services/notas_comunidad_service.py:23-33 | a text that strips to nothing is refused with 422 and no write; otherwise one row is added under the new id |
| CommunityEntries.InsertText | app/services/comentarios_service.py:28-32 | an empty cleaned text is refused with 422; otherwise the fields are stored under the new id |
| CommunityEntries.CreateEntryStores | app/services/comentarios_service.py:24-32 | the stored entry holds the id, the stripped text and the other allowed columns as sent, and no other column |
| CommunityEntries.StoredTextTrimmed | app/services/comentarios_service.py:28 | the stored text is non-empty, neither starts nor ends with whitespace, and is a contiguous piece of the text sent |
| CommunityEntries.StripPadding | app/services/comentarios_service.py:28-29 | stripping twice is stripping once, and the stripped text is blank exactly when the original is |
| CommunityEntries.CreateIgnoresPadding | app/services/comentarios_service.py:28-31 | whitespace around the text does not change what is created |
| CommunityEntries.UpdateFields | app/services/comentarios_service.py:44-50 | the update writes exactly the non-null allowed columns, with the cleaned text in place of a sent text |
| CommunityEntries.UpdateFieldsAgree | app/services/comentarios_service.py:42-44 | columns outside the allowed set never affect what an update writes |
| CommunityEntries.UpdateEntry | app/services/comentarios_service.py:41-58 | a sent text that strips to nothing is refused with 422 before the row is looked for; otherwise a missing row is 404 with no write, and the row is patched: a sent text stored stripped, a sent report or author written, an omitted column kept, and columns outside the allowed set unchanged |
| CommunityEntries.UpdateIgnoresPadding | app/services/comentarios_service.py:46-50 | whitespace around a sent text does not change the update |
| CommunityEntries.GetEntry | app/services/comentarios_service.py:35-39 | the stored entry, or 404 exactly when the id is missing |
| NotasComunidadService.DumpNotaCreate | app/models/nota_comunidad.py:5-9 | the dump holds the four fields of the model, `es_veraz` included |
| NotasComunidadService.DumpNotaUpdate | app/models/nota_comunidad.py:17-21 | the dump holds the four fields of the update, and `None` as null |
| NotasComunidadService.CreateNota | app/services/notas_comunidad_service.py:23-33 | a note that strips to nothing is refused with 422; otherwise the report, the author and the stripped note are stored, and never `es_veraz` |
| NotasComunidadService.CreateNotaDropsVeracity | app/services/notas_comunidad_service.py:24-26 | the verdict a client sends on creation does not change what is stored |
| NotasComunidadService.GetNota | app/services/notas_comunidad_service.py:35-39 | the stored note, or 404 exactly when the id is missing |
| NotasComunidadService.UpdateNota | app/services/notas_comunidad_service.py:41-58 | a sent note that strips to nothing is refused with 422; otherwise a missing row is 404; a sent note is stored stripped; a sent report or author is written; an omitted field keeps its stored value; a stored `es_veraz` is never touched |
| NotasComunidadService.UpdateNotaIgnoresVeracity | app/services/notas_comunidad_service.py:42-44 | the verdict a client sends on update does not change the update |
| ComentariosService.DumpComentarioCreate | app/models/comentario.py:5-8 | the dump holds exactly the three fields of the model |
| ComentariosService.DumpComentarioUpdate | app/models/comentario.py:16-19 | the dump holds the three fields of the update, and `None` as null |
| ComentariosService.CreateComentario | app/services/comentarios_service.py:23-33 | a message that strips to nothing is refused with 422 and no write; otherwise one row is added under the new id |
| ComentariosService.CreateComentarioStores | app/services/comentarios_service.py:24-31 | the stored comment holds the id, the report, the author and the stripped message, and no other column |
| ComentariosService.GetComentario | app/services/comentarios_service.py:35-39 | the stored comment, or 404 exactly when the id is missing |
| ComentariosService.UpdateComentario | app/services/comentarios_service.py:41-58 | a sent message that strips to nothing is refused with 422; otherwise a missing row is 404; a sent message is stored stripped; a sent report or author is written; an omitted field keeps its stored value |
| ComentariosService.UpdateComentarioIgnoresPadding | app/services/comentarios_service.py:46-50 | whitespace around a sent message does not change the update |
| UsersService.ParseUserCreate | app/models/user.py:6-9 | a valid body has a `user` of 3 to 50 characters; a name of any other length is refused with 422 |
| UsersService.DumpUserCreate | app/models/user.py:6-9 | the dump holds exactly `user`, `email` and `psswd` |
| UsersService.UserCreateRoundTrip | app/models/user.py:6-9 | validating the dump of a user with a valid name gives the user back |
| UsersService.ILikeFoldEq | app/repositories/users_repository.py:20-25 | the lookup pattern matches every name equal to it up to case, whatever characters it holds |
| UsersService.ILikeStarOne | app/repositories/users_repository.py:22 | a leading `%` in a name can stand for one character |
| UsersService.ILikeLiteral | app/repositories/users_repository.py:21-22 | for a name without wildcards the lookup is equality up to case, in both directions |
| UsersService.TakenIffMatching | app/repositories/users_repository.py:20-25 | the lookup returns a row exactly when some stored name matches the pattern |
| UsersService.Taken | app/services/users_service.py:17-22 | the duplicate check of `create_user`: some stored user name is matched by the new name under `ilike` |
| UsersService.CreateUser | app/services/users_service.py:15-29 | a name the lookup finds is refused with 400 and no write; otherwise `user`, `email` and `psswd` are stored under a new id |
| UsersService.CreateRefusesExistingName | app/services/users_service.py:16-22 | a name already stored, in any case, is refused with 400 |
| UsersService.CreateLiteralName | app/services/users_service.py:16-22 | for a name without wildcards, creation succeeds exactly when no stored name equals it up to case |
| UsersService.CreateTwiceRefused | app/services/users_service.py:15-29 | creating the same user twice fails the second time with 400 |
| UsersService.WildcardNameRefused | app/repositories/users_repository.py:22 | the name is sent unescaped: `a_c` is refused when `abc` exists |
| UsersService.GetUser | app/services/users_service.py:31-35 | the stored user, or 404 exactly when the id is missing |
| UsersService.DumpUserUpdate | app/models/user.py:18-21 | the dump holds the three fields of the update, and `None` as null |
| UsersService.UpdateUser | app/services/users_service.py:37-50 | a missing row is 404 with no write; each of `user`, `email` and `psswd` is stored when sent and kept when omitted; other columns keep their values |
| UsersService.UpdateAllowsDuplicateName | app/services/users_service.py:37-43 | update does not repeat the duplicate check: any user can be renamed to the name another user holds, a name creation refuses with 400 |

## Left out

- `calcular_nivel_riesgo` reads the reports with `list_reportes(limit=1000, order="created_at.desc")` (app/services/areas_interes_service.py:126). The repository's `list_reportes` takes no arguments, so as written that call raises `TypeError`. The model takes the report listing as an input sequence and says nothing about its order or its limit of 1000.
- The Haversine formula (app/services/areas_interes_service.py:92-106) is the parameter `dist`. Floating-point trigonometry is outside the model, and so is any property of the distance itself.
- Timestamp parsing with `datetime.fromisoformat` is the parameter `parse`, and `datetime.now()` is the parameter `now`, in seconds. A very large `dias_analisis` makes `timedelta` raise `OverflowError`; the model does not raise in that case.
- Floating-point arithmetic is modelled as exact reals. This covers the percentage `up / total * 100`, the radius in kilometres and the comparison of the distance with it. Rounding is not modelled.
- Python's `int` is unbounded, so the model's `int` has no width to model. The one bound that applies is `int()`'s refusal of strings of more than 4300 digits, the default of `sys.get_int_max_str_digits()`. The id lists model it; no other code converts a string to an integer.
- Update payloads can be either the update model or the create model (`ReporteUpdate | ReporteCreate` and the like). Only the update model is modelled.
- Pydantic coercions other than an integer where a float is expected are not modelled: numeric strings are not converted, and `EmailStr` is not validated. A value whose JSON type is wrong is refused with 422.
- The `*Out` models are not modelled as the conversion of stored rows in responses. The one exception is the null-tolerant counters of `ReporteOut` (`ReporteModel.OutCounter`).
- RiskScoring.Tally: `tipos_delitos` is a map, so the insertion order of the Python dict is not modelled. Categories that Python finds equal (`1`, `1.0`, `True`) share one count, as in the source. The shared key is shown as the float, whereas Python keeps whichever of the values came first.
- RiskScoring.TallyCounts: counts per Python-equal key, as the source does, but a numeric key is the float form of the category rather than the first value Python inserted.
- Case folding for `ilike` is the parameter `fold`. PostgreSQL's backslash escape in `ilike` patterns is not modelled, and neither is the `limit=1` of the lookup, which does not change whether a row is found.
- `strip` removes Python's full Unicode whitespace set (`str.isspace`), in the id lists and in the text checks alike.
- IdList.ParsePieces: accepts only the ASCII digits `0`-`9`, but Python's `str.isdigit` accepts other Unicode digits too. A decimal digit from another script, such as `٣`, passes `isdigit` and `int()` reads it as 3; the model drops that piece instead. A digit that is not decimal, such as `²` or `①`, passes `isdigit` but makes `int()` raise `ValueError`; the model drops that piece instead of raising.
- IdList.ParsePiecesFails: the iff is over the ASCII reading of the filter. A non-decimal digit such as `²` passes `isdigit` and makes `int()` raise in the source, but the model's filter drops it, so such a piece never makes the model's parse fail.
- IdList.ParsePiecesMembers: "all digits" means ASCII digits, with the same gap as `IdList.ParsePieces`.
- IdList.ParseIds: has the same non-ASCII digit gap as `IdList.ParsePieces`.
- IdList.BulkFetch: for a piece such as `²`, the source answers 400 for the whole request. The model instead passes the remaining ids to the service. For a piece such as `٣`, the model leaves out the id 3 that the source passes on. A string that `isdigit` accepts counts its non-ASCII digits toward the 4300-digit limit too, which the model cannot see.
- IdList.AdjuntosByReporteIds: has the digit gap of `IdList.BulkFetch`. A piece such as `²` gives 400 in the source, while the model answers with the attachments of the remaining ids.
- IdList.BulkUsers: has the digit gap of `IdList.BulkFetch`. The endpoint answers 400 in every case anyway, because the users service has no `get_users_by_ids`.
- Concurrency is not modelled: the check-then-create races of `create_seguidor` and `create_user` need concurrent requests, and the model has none.
- The repositories are an abstract keyed store: insert assigns the next id, update patches a row or finds none, and delete-where counts the rows it removed. The network, PostgREST errors and `raise_for_status` are not modelled.
- `delete_reporte`, `delete_area`, `delete_seguidor`, `delete_nota`, `delete_comentario` and `delete_user` only forward the repository's count, so they are not modelled. The list endpoints (`list_*`, `list_by_user`) only forward a listing, and are not modelled either.
- The reactions and attachments services only filter allowed keys, so they are not modelled. The attachments service also calls a repository method, `list_by_report`, that its repository does not define. The attachments endpoint is modelled with the service call as the parameter `fetch`.
- Sending email, the places proxy, authentication, routing and the HTTP client are I/O and are not part of this model.
- ReportesService.UpdateReporte: requires the stored counters to be integers or null, which is what the integer columns hold. The `int()` conversion the source applies to any other stored value is not modelled.
- SeguidoresService.Unfollow: returns the count of deleted rows rather than the `{"deleted": count}` object that wraps it.

=== FILE: area_interes.dfy ===
/** The request models of an area of interest (`AreaInteresCreate`,
    `AreaInteresUpdate`): which fields are required and the defaults pydantic
    fills in (a 1000 m radius, weekly notifications, active).
 */
module AreaInteresModel {
  import opened Wrappers
  import opened Rows

  datatype AreaInteresCreate = AreaInteresCreate(
    userId: int,
    nombre: string,
    lat: real,
    lon: real,
    radioMetros: Option<int>,
    frecuenciaNotificacion: Option<string>,
    activo: Option<bool>)

  datatype AreaInteresUpdate = AreaInteresUpdate(
    nombre: Option<string>,
    lat: Option<real>,
    lon: Option<real>,
    radioMetros: Option<int>,
    frecuenciaNotificacion: Option<string>,
    activo: Option<bool>,
    ultimaNotificacion: Option<string>)

  const DefaultRadius: int := 1000
  const DefaultFrequency: string := "semanal"

  /** The fields of `AreaInteresCreate`, by their JSON names. */
  const AreaCreateFields: set<string> :=
    {"user_id", "nombre", "lat", "lon", "radio_metros", "frecuencia_notificacion", "activo"}

  /** The fields of `AreaInteresUpdate`: no author, plus the last notification time. */
  const AreaUpdateFields: set<string> := AreaCreateFields - {"user_id"} + {"ultima_notificacion"}

  /** Validate a JSON body as an `AreaInteresCreate`. */
  function ParseAreaCreate(j: Row): (r: Result<AreaInteresCreate>)
    ensures r.Ok? ==> "user_id" in j && j["user_id"] == VInt(r.value.userId)
    ensures r.Ok? ==> "nombre" in j && j["nombre"] == VStr(r.value.nombre)
    ensures r.Ok? ==> "lat" in j && "lon" in j
    ensures r.Ok? && "radio_metros" !in j ==> r.value.radioMetros == Some(DefaultRadius)
    ensures r.Ok? && "frecuencia_notificacion" !in j ==> r.value.frecuenciaNotificacion == Some(DefaultFrequency)
    ensures r.Ok? && "activo" !in j ==> r.value.activo == Some(true)
  {
    var userId :- RequiredInt(j, "user_id");
    var nombre :- RequiredStr(j, "nombre");
    var lat :- RequiredReal(j, "lat");
    var lon :- RequiredReal(j, "lon");
    var radio :- OptionalInt(j, "radio_metros", Some(DefaultRadius));
    var frecuencia :- OptionalStr(j, "frecuencia_notificacion", Some(DefaultFrequency));
    var activo :- OptionalBool(j, "activo", Some(true));
    Ok(AreaInteresCreate(userId, nombre, lat, lon, radio, frecuencia, activo))
  }

  /** `model_dump()` of an `AreaInteresCreate`. */
  function DumpAreaCreate(p: AreaInteresCreate): (d: Row)
    ensures d.Keys == AreaCreateFields
    ensures d["user_id"] == VInt(p.userId) && d["nombre"] == VStr(p.nombre)
    ensures d["lat"] == VReal(p.lat) && d["lon"] == VReal(p.lon)
    ensures d["radio_metros"] == IntValue(p.radioMetros)
    ensures d["frecuencia_notificacion"] == StrValue(p.frecuenciaNotificacion)
    ensures d["activo"] == BoolValue(p.activo)
  {
    map[
      "user_id" := VInt(p.userId),
      "nombre" := VStr(p.nombre),
      "lat" := VReal(p.lat),
      "lon" := VReal(p.lon),
      "radio_metros" := IntValue(p.radioMetros),
      "frecuencia_notificacion" := StrValue(p.frecuenciaNotificacion),
      "activo" := BoolValue(p.activo)
    ]
  }

  lemma AreaCreateRoundTrip(p: AreaInteresCreate)
    ensures ParseAreaCreate(DumpAreaCreate(p)) == Ok(p)
  {
    var d := DumpAreaCreate(p);
    assert RequiredInt(d, "user_id") == Ok(p.userId);
    assert RequiredStr(d, "nombre") == Ok(p.nombre);
    assert RequiredReal(d, "lat") == Ok(p.lat);
    assert RequiredReal(d, "lon") == Ok(p.lon);
    assert OptionalInt(d, "radio_metros", Some(DefaultRadius)) == Ok(p.radioMetros);
    assert OptionalStr(d, "frecuencia_notificacion", Some(DefaultFrequency)) == Ok(p.frecuenciaNotificacion);
    assert OptionalBool(d, "activo", Some(true)) == Ok(p.activo);
  }

  /** A body with only the four required fields takes the defaults: a
      1000 m radius, weekly notifications, active. */
  lemma AreaCreateDefaults(userId: int, nombre: string, lat: real, lon: real)
    ensures ParseAreaCreate(map["user_id" := VInt(userId), "nombre" := VStr(nombre),
                                "lat" := VReal(lat), "lon" := VReal(lon)])
         == Ok(AreaInteresCreate(userId, nombre, lat, lon, Some(1000), Some("semanal"), Some(true)))
  {
  }

  /** Coordinates are required: a body without them is rejected with 422. */
  lemma AreaCreateNeedsCoordinates(j: Row)
    requires "lat" !in j || "lon" !in j
    ensures ParseAreaCreate(j) == Err(Unprocessable)
  {
  }

  /** Validate a JSON body as an `AreaInteresUpdate`. */
  function ParseAreaUpdate(j: Row): (r: Result<AreaInteresUpdate>)
    ensures r.Ok? && "radio_metros" in j ==> j["radio_metros"] == IntValue(r.value.radioMetros)
    ensures r.Ok? && "frecuencia_notificacion" in j ==>
              j["frecuencia_notificacion"] == StrValue(r.value.frecuenciaNotificacion)
  {
    var nombre :- OptionalStr(j, "nombre", None);
    var lat :- OptionalReal(j, "lat", None);
    var lon :- OptionalReal(j, "lon", None);
    var radio :- OptionalInt(j, "radio_metros", None);
    var frecuencia :- OptionalStr(j, "frecuencia_notificacion", None);
    var activo :- OptionalBool(j, "activo", None);
    var ultima :- OptionalStr(j, "ultima_notificacion", None);
    Ok(AreaInteresUpdate(nombre, lat, lon, radio, frecuencia, activo, ultima))
  }

  /** `model_dump()` of an `AreaInteresUpdate`. */
  function DumpAreaUpdate(p: AreaInteresUpdate): (d: Row)
    ensures d.Keys == AreaUpdateFields
    ensures d["nombre"] == StrValue(p.nombre)
    ensures d["lat"] == RealValue(p.lat) && d["lon"] == RealValue(p.lon)
    ensures d["radio_metros"] == IntValue(p.radioMetros)
    ensures d["frecuencia_notificacion"] == StrValue(p.frecuenciaNotificacion)
    ensures d["activo"] == BoolValue(p.activo)
    ensures d["ultima_notificacion"] == StrValue(p.ultimaNotificacion)
  {
    map[
      "nombre" := StrValue(p.nombre),
      "lat" := RealValue(p.lat),
      "lon" := RealValue(p.lon),
      "radio_metros" := IntValue(p.radioMetros),
      "frecuencia_notificacion" := StrValue(p.frecuenciaNotificacion),
      "activo" := BoolValue(p.activo),
      "ultima_notificacion" := StrValue(p.ultimaNotificacion)
    ]
  }

  lemma AreaUpdateRoundTrip(p: AreaInteresUpdate)
    ensures ParseAreaUpdate(DumpAreaUpdate(p)) == Ok(p)
  {
    var d := DumpAreaUpdate(p);
    assert OptionalStr(d, "nombre", None) == Ok(p.nombre);
    assert OptionalReal(d, "lat", None) == Ok(p.lat);
    assert OptionalReal(d, "lon", None) == Ok(p.lon);
    assert OptionalInt(d, "radio_metros", None) == Ok(p.radioMetros);
    assert OptionalStr(d, "frecuencia_notificacion", None) == Ok(p.frecuenciaNotificacion);
    assert OptionalBool(d, "activo", None) == Ok(p.activo);
    assert OptionalStr(d, "ultima_notificacion", None) == Ok(p.ultimaNotificacion);
  }

  /** Every `AreaInteresUpdate` field is optional and defaults to `None`. */
  lemma AreaUpdateDefaults()
    ensures ParseAreaUpdate(map[]) == Ok(AreaInteresUpdate(None, None, None, None, None, None, None))
  {
  }
}

=== FILE: areas_interes_service.dfy ===
/** The areas-of-interest service: creating an area (an unknown notification
    frequency becomes weekly, a non-positive radius becomes 1000 m, a blank
    name is refused), reading one, and the partial update that refuses an
    unknown frequency or a non-positive radius instead of repairing them.
 */
module AreasInteresService {
  import opened Wrappers
  import opened Rows
  import opened Store
  import opened AreaInteresModel
  import Text

  const Freq: string := "frecuencia_notificacion"
  const Radius: string := "radio_metros"

  /** The frequencies the service knows. */
  predicate KnownFrequency(v: Value) {
    v == VStr("diario") || v == VStr("semanal")
  }

  /** The shape every stored area keeps: a known frequency and a positive radius. */
  predicate AreaValid(row: Row) {
    && Freq in row && KnownFrequency(row[Freq])
    && Radius in row && row[Radius].VInt? && row[Radius].i > 0
  }

  predicate AreasValid(t: Table) {
    forall id :: id in t.rows ==> AreaValid(t.rows[id])
  }

  // ----- create_area -----

  /** The frequency stored on creation: the one sent if known, else weekly. */
  function CreateFrequency(v: Value): (r: Value)
    ensures KnownFrequency(r)
    ensures KnownFrequency(v) ==> r == v
    ensures !KnownFrequency(v) ==> r == VStr(DefaultFrequency)
  {
    if KnownFrequency(v) then v else VStr(DefaultFrequency)
  }

  /** The radius stored on creation: the one sent if positive, else 1000. */
  function CreateRadius(n: int): (r: int)
    ensures r > 0
    ensures n > 0 ==> r == n
    ensures n <= 0 ==> r == DefaultRadius
  {
    if n <= 0 then DefaultRadius else n
  }

  /** The dumped payload with the frequency and the radius repaired. */
  function Repaired(d: Row): (r: Row)
    requires Freq in d && Radius in d && d[Radius].VInt?
    ensures r.Keys == d.Keys
    ensures r[Freq] == CreateFrequency(d[Freq])
    ensures r[Radius] == VInt(CreateRadius(d[Radius].i))
    ensures forall k :: k in d && k != Freq && k != Radius ==> r[k] == d[k]
  {
    d[Freq := CreateFrequency(d[Freq])][Radius := VInt(CreateRadius(d[Radius].i))]
  }

  /** `if not nombre.strip()`: the name check of `create_area`. */
  predicate NameMissing(nombre: string) {
    Text.Strip(nombre) == []
  }

  /** The columns `create_area` stores, or the error it raises. */
  function CreateFields(p: AreaInteresCreate): (r: Result<Row>)
    ensures p.radioMetros.None? ==> r == Err(InternalError)
    ensures p.radioMetros.Some? && Text.IsBlank(p.nombre) ==> r == Err(Unprocessable)
    ensures r.Ok? <==> p.radioMetros.Some? && !Text.IsBlank(p.nombre)
    ensures r.Ok? ==>
              && r.value.Keys == AreaCreateFields
              && r.value["user_id"] == VInt(p.userId)
              && r.value["nombre"] == VStr(p.nombre)
              && r.value[Radius] == VInt(CreateRadius(p.radioMetros.value))
              && r.value[Freq] == CreateFrequency(StrValue(p.frecuenciaNotificacion))
              && AreaValid(r.value)
  {
    // The allowed set names every field of the model, so the filter keeps the whole dump.
    var sanitized := DumpAreaCreate(p);
    Text.StripEmptyIffBlank(p.nombre);
    if p.radioMetros.None? then Err(InternalError)
    else if NameMissing(p.nombre) then Err(Unprocessable)
    else
      assert Freq in AreaCreateFields && Radius in AreaCreateFields;
      assert "user_id" != Freq && "user_id" != Radius && "nombre" != Freq && "nombre" != Radius;
      Ok(Repaired(sanitized))
  }

  /** `create_area`. A null radius cannot be compared with 0 and raises
      `TypeError` (a 500) before the name is looked at; a name that strips
      to nothing is refused with 422. The name is stored as sent, not
      stripped. Nothing is written on error. */
  function CreateArea(t: Table, p: AreaInteresCreate): (s: Step<Row>)
    requires Valid(t)
    ensures s.result.Ok? <==> CreateFields(p).Ok?
    ensures s.result.Err? ==> s == Fail(t, CreateFields(p).status)
    ensures s.result.Ok? ==>
              && Valid(s.table)
              && s.table.rows == t.rows[t.nextId := s.result.value]
              && s.result.value == CreateFields(p).value["id" := VInt(t.nextId)]
  {
    var r := CreateFields(p);
    if r.Err? then Fail(t, r.status)
    else
      var (t', row) := Insert(t, r.value);
      Step(t', Ok(row))
  }

  /** `get_area`: the stored area, or 404. */
  function GetArea(t: Table, id: int): (r: Result<Row>)
    ensures r.Ok? <==> id in t.rows
    ensures r.Ok? ==> r.value == t.rows[id]
    ensures r.Err? ==> r.status == NotFound
  {
    Store.Get(t, id)
  }

  // ----- update_area -----

  /** The update is refused when it names an unknown frequency or a
      non-positive radius. */
  predicate UpdateRefused(p: AreaInteresUpdate) {
    || (p.frecuenciaNotificacion.Some? && !KnownFrequency(VStr(p.frecuenciaNotificacion.value)))
    || (p.radioMetros.Some? && p.radioMetros.value <= 0)
  }

  /** The columns `update_area` writes: the non-null fields of the update. */
  function UpdateFields(p: AreaInteresUpdate): (fields: Row)
    ensures forall k :: k in fields <==> k in AreaUpdateFields && Given(DumpAreaUpdate(p), k)
    ensures forall k :: k in fields ==> fields[k] == DumpAreaUpdate(p)[k]
    ensures "nombre" in fields <==> p.nombre.Some?
    ensures p.nombre.Some? ==> fields["nombre"] == VStr(p.nombre.value)
    ensures Radius in fields <==> p.radioMetros.Some?
    ensures p.radioMetros.Some? ==> fields[Radius] == VInt(p.radioMetros.value)
    ensures Freq in fields <==> p.frecuenciaNotificacion.Some?
    ensures p.frecuenciaNotificacion.Some? ==> fields[Freq] == VStr(p.frecuenciaNotificacion.value)
  {
    var raw := DumpAreaUpdate(p);
    assert "nombre" in AreaUpdateFields && Freq in AreaUpdateFields && Radius in AreaUpdateFields;
    RestrictGiven(raw, AreaUpdateFields)
  }

  /** `update_area`: the given (non-null) fields are validated, then
      written. Validation comes first, so an invalid update of a missing
      area is answered 422, not 404. */
  function UpdateArea(t: Table, id: int, p: AreaInteresUpdate): (s: Step<Row>)
    ensures s.result.Err? ==> s.table == t
    ensures UpdateRefused(p) ==> s.result == Err(Unprocessable)
    ensures !UpdateRefused(p) && id !in t.rows ==> s.result == Err(NotFound)
    ensures s.result.Ok? <==> !UpdateRefused(p) && id in t.rows
    ensures Valid(t) ==> Valid(s.table)
    ensures s.result.Ok? ==>
              && s.table == t.(rows := t.rows[id := s.result.value])
              && s.result.value == t.rows[id] + UpdateFields(p)
              && (forall k :: k !in AreaUpdateFields && k in t.rows[id] ==>
                    k in s.result.value && s.result.value[k] == t.rows[id][k])
              && (forall k :: k in AreaUpdateFields && Given(DumpAreaUpdate(p), k) ==>
                    k in s.result.value && s.result.value[k] == DumpAreaUpdate(p)[k])
              && (forall k :: k in AreaUpdateFields && !Given(DumpAreaUpdate(p), k) && k in t.rows[id] ==>
                    k in s.result.value && s.result.value[k] == t.rows[id][k])
              && (p.nombre.Some? ==> "nombre" in s.result.value && s.result.value["nombre"] == VStr(p.nombre.value))
              && (p.nombre.None? && "nombre" in t.rows[id] ==>
                    "nombre" in s.result.value && s.result.value["nombre"] == t.rows[id]["nombre"])
              && (p.radioMetros.Some? ==> Radius in s.result.value && s.result.value[Radius] == VInt(p.radioMetros.value))
              && (p.frecuenciaNotificacion.Some? ==>
                    Freq in s.result.value && s.result.value[Freq] == VStr(p.frecuenciaNotificacion.value))
  {
    var sanitized := UpdateFields(p);
    if Freq in sanitized && !KnownFrequency(sanitized[Freq]) then Fail(t, Unprocessable)
    else if Radius in sanitized && sanitized[Radius].VInt? && sanitized[Radius].i <= 0 then Fail(t, Unprocessable)
    else UpdateOne(t, id, sanitized)
  }

  /** An update never moves an area to another user. */
  lemma UpdateKeepsOwner(t: Table, id: int, p: AreaInteresUpdate)
    requires UpdateArea(t, id, p).result.Ok?
    requires "user_id" in t.rows[id]
    ensures UpdateArea(t, id, p).result.value["user_id"] == t.rows[id]["user_id"]
  {
  }

  /** Every area the service stores keeps a known frequency and a positive
      radius: creation repairs them, update refuses to break them. */
  lemma AreasStayValid(t: Table, id: int, c: AreaInteresCreate, u: AreaInteresUpdate)
    requires Valid(t) && AreasValid(t)
    ensures AreasValid(CreateArea(t, c).table)
    ensures AreasValid(UpdateArea(t, id, u).table)
  {
    CreateKeepsAreasValid(t, c);
    UpdateKeepsAreasValid(t, id, u);
  }

  /** The creation half of `AreasStayValid`: the stored row is valid. */
  lemma CreateKeepsAreasValid(t: Table, c: AreaInteresCreate)
    requires Valid(t) && AreasValid(t)
    ensures CreateArea(t, c).result.Ok? ==> AreaValid(CreateArea(t, c).result.value)
    ensures AreasValid(CreateArea(t, c).table)
  {
    if CreateFields(c).Ok? {
      IdKeepsAreaValid(CreateFields(c).value, t.nextId);
    }
  }

  /** Adding the id column leaves the frequency and the radius alone. */
  lemma IdKeepsAreaValid(row: Row, id: int)
    requires AreaValid(row)
    ensures AreaValid(row["id" := VInt(id)])
  {
    assert "id" != Freq && "id" != Radius;
  }

  /** The update half of `AreasStayValid`. */
  lemma UpdateKeepsAreasValid(t: Table, id: int, u: AreaInteresUpdate)
    requires AreasValid(t)
    ensures AreasValid(UpdateArea(t, id, u).table)
  {
    var s := UpdateArea(t, id, u);
    if s.result.Ok? {
      var row := s.result.value;
      var old_ := t.rows[id];
      assert AreaValid(old_);
      if u.frecuenciaNotificacion.None? {
        assert Freq in old_ && row[Freq] == old_[Freq];
      }
      if u.radioMetros.None? {
        assert Radius in old_ && row[Radius] == old_[Radius];
      }
      assert AreaValid(row);
    }
  }
}

=== FILE: comentarios_service.dfy ===
/** The comments service: a message a user leaves on a report. */
module ComentariosService {
  import opened Wrappers
  import opened Rows
  import opened Store
  import opened CommunityEntries
  import Text

  datatype ComentarioCreate = ComentarioCreate(reporteId: int, userId: int, mensaje: string)

  datatype ComentarioUpdate = ComentarioUpdate(reporteId: Option<int>, userId: Option<int>, mensaje: Option<string>)

  /** `model_dump()` of a `ComentarioCreate`. */
  function DumpComentarioCreate(p: ComentarioCreate): (d: Row)
    ensures d.Keys == {"reporte_id", "user_id", "mensaje"}
    ensures d["reporte_id"] == VInt(p.reporteId) && d["user_id"] == VInt(p.userId)
    ensures d["mensaje"] == VStr(p.mensaje)
  {
    map["reporte_id" := VInt(p.reporteId), "user_id" := VInt(p.userId), "mensaje" := VStr(p.mensaje)]
  }

  /** `model_dump()` of a `ComentarioUpdate`. */
  function DumpComentarioUpdate(p: ComentarioUpdate): (d: Row)
    ensures d.Keys == {"reporte_id", "user_id", "mensaje"}
    ensures d["reporte_id"] == IntValue(p.reporteId) && d["user_id"] == IntValue(p.userId)
    ensures d["mensaje"] == StrValue(p.mensaje)
  {
    map["reporte_id" := IntValue(p.reporteId), "user_id" := IntValue(p.userId), "mensaje" := StrValue(p.mensaje)]
  }

  /** `create_comentario`: a message that strips to nothing is refused
      with 422; otherwise a row is stored under a new id. */
  function CreateComentario(t: Table, p: ComentarioCreate): (s: Step<Row>)
    requires Valid(t)
    ensures s.result.Ok? <==> !Text.IsBlank(p.mensaje)
    ensures s.result.Err? ==> s == Fail(t, Unprocessable)
    ensures s.result.Ok? ==> s.table.rows == t.rows[t.nextId := s.result.value]
  {
    var d := DumpComentarioCreate(p);
    assert Column(Comentario) == "mensaje";
    CreateEntry(t, d, Comentario)
  }

  /** The stored comment holds the report, the author and the stripped
      message under the new id, and no other column. */
  lemma CreateComentarioStores(t: Table, p: ComentarioCreate)
    requires Valid(t) && !Text.IsBlank(p.mensaje)
    ensures var row := CreateComentario(t, p).result.value;
      && (forall k :: k in row ==> k in Allowed(Comentario) || k == "id")
      && "id" in row && row["id"] == VInt(t.nextId)
      && "reporte_id" in row && row["reporte_id"] == VInt(p.reporteId)
      && "user_id" in row && row["user_id"] == VInt(p.userId)
      && "mensaje" in row && row["mensaje"] == VStr(Text.Strip(p.mensaje))
  {
    var d := DumpComentarioCreate(p);
    assert Column(Comentario) == "mensaje";
    assert "reporte_id" in Allowed(Comentario) && "user_id" in Allowed(Comentario);
    CreateEntryStores(t, d, Comentario);
  }

  /** `get_comentario`: the stored comment, or 404. */
  function GetComentario(t: Table, id: int): (r: Result<Row>)
    ensures r.Ok? <==> id in t.rows
    ensures r.Ok? ==> r.value == t.rows[id]
    ensures r.Err? ==> r.status == NotFound
  {
    GetEntry(t, id)
  }

  /** `update_comentario`: a sent message that strips to nothing is refused
      with 422; otherwise the sent fields are patched in, the message
      stripped, or 404. */
  function UpdateComentario(t: Table, id: int, p: ComentarioUpdate): (s: Step<Row>)
    ensures p.mensaje.Some? && Text.IsBlank(p.mensaje.value) ==> s == Fail(t, Unprocessable)
    ensures s.result.Ok? <==> !(p.mensaje.Some? && Text.IsBlank(p.mensaje.value)) && id in t.rows
    ensures !(p.mensaje.Some? && Text.IsBlank(p.mensaje.value)) && id !in t.rows ==> s == Fail(t, NotFound)
    ensures s.result.Err? ==> s.table == t
    ensures s.result.Ok? ==>
              && s.table == t.(rows := t.rows[id := s.result.value])
              && (p.reporteId.Some? ==>
                    "reporte_id" in s.result.value && s.result.value["reporte_id"] == VInt(p.reporteId.value))
              && (p.reporteId.None? && "reporte_id" in t.rows[id] ==>
                    "reporte_id" in s.result.value && s.result.value["reporte_id"] == t.rows[id]["reporte_id"])
              && (p.userId.Some? ==>
                    "user_id" in s.result.value && s.result.value["user_id"] == VInt(p.userId.value))
              && (p.userId.None? && "user_id" in t.rows[id] ==>
                    "user_id" in s.result.value && s.result.value["user_id"] == t.rows[id]["user_id"])
              && (p.mensaje.Some? ==>
                    "mensaje" in s.result.value && s.result.value["mensaje"] == VStr(Text.Strip(p.mensaje.value)))
              && (p.mensaje.None? && "mensaje" in t.rows[id] ==>
                    "mensaje" in s.result.value && s.result.value["mensaje"] == t.rows[id]["mensaje"])
  {
    var d := DumpComentarioUpdate(p);
    assert Column(Comentario) == "mensaje";
    assert "mensaje" in Allowed(Comentario);
    assert "reporte_id" in Allowed(Comentario) && "user_id" in Allowed(Comentario);
    UpdateEntry(t, id, d, Comentario)
  }

  /** Stripping the message before sending it changes nothing: the stored
      message is the same. */
  lemma UpdateComentarioIgnoresPadding(t: Table, id: int, p: ComentarioUpdate, m: string)
    ensures UpdateComentario(t, id, p.(mensaje := Some(m)))
         == UpdateComentario(t, id, p.(mensaje := Some(Text.Strip(m))))
  {
    var d := DumpComentarioUpdate(p);
    assert Column(Comentario) == "mensaje";
    assert DumpComentarioUpdate(p.(mensaje := Some(m))) == d["mensaje" := VStr(m)];
    assert DumpComentarioUpdate(p.(mensaje := Some(Text.Strip(m)))) == d["mensaje" := VStr(Text.Strip(m))];
    UpdateIgnoresPadding(t, id, d, Comentario, m);
  }
}

=== FILE: community_entries.dfy ===
/** The shape the community notes and the comments services share: an
    entry attached to a report by a user, carrying one text column (`nota`
    or `mensaje`). Creation stores only the report, the user and the text,
    stripped of surrounding whitespace, and refuses a text that strips to
    nothing; a partial update strips the text only when it is sent.
 */
module CommunityEntries {
  import opened Wrappers
  import opened Rows
  import opened Store
  import Text

  /** Which of the two services an entry belongs to. */
  datatype Kind = Nota | Comentario

  /** The text column of each kind of entry. */
  function Column(kind: Kind): (c: string)
    ensures c != "id" && c != "reporte_id" && c != "user_id"
  {
    match kind
    case Nota => "nota"
    case Comentario => "mensaje"
  }

  /** The columns both services write. */
  function Allowed(kind: Kind): set<string> {
    {"reporte_id", "user_id", Column(kind)}
  }

  /** The text as it is stored: `str.strip()` of the text sent, when one is sent. */
  function CleanText(raw: Row, kind: Kind): string {
    if Column(kind) in raw && raw[Column(kind)].VStr? then Text.Strip(raw[Column(kind)].s) else []
  }

  // ----- create -----

  /** The columns a creation writes: the allowed columns of the payload,
      with `text` in place of the text sent. */
  function CreateFields(raw: Row, kind: Kind, text: string): (fields: Row)
    ensures forall k :: k in fields <==> k in raw && k in Allowed(kind)
    ensures Column(kind) in raw ==> Column(kind) in fields && fields[Column(kind)] == VStr(text)
    ensures forall k :: k in fields && k != Column(kind) ==> fields[k] == raw[k]
  {
    map k | k in raw && k in Allowed(kind) :: if k == Column(kind) then VStr(text) else raw[k]
  }

  /** Two payloads that hold the same allowed columns, apart from the text. */
  predicate AgreeOutsideText(a: Row, b: Row, kind: Kind) {
    forall k :: k in Allowed(kind) && k != Column(kind) ==>
      (k in a <==> k in b) && (k in a ==> a[k] == b[k])
  }

  /** Columns outside the allowed ones, and the value of the text column,
      do not affect the columns a creation writes. */
  lemma CreateFieldsAgree(a: Row, b: Row, kind: Kind, text: string)
    requires AgreeOutsideText(a, b, kind)
    requires Column(kind) in a <==> Column(kind) in b
    ensures CreateFields(a, kind, text) == CreateFields(b, kind, text)
  {
    var fa, fb := CreateFields(a, kind, text), CreateFields(b, kind, text);
    forall k | k in fa
      ensures k in fb && fa[k] == fb[k]
    {
    }
    assert fa.Keys == fb.Keys;
  }

  /** `create_nota` / `create_comentario`: keep the allowed columns, refuse
      a blank text with 422 without writing, and store the stripped text
      under a new id. */
  function CreateEntry(t: Table, raw: Row, kind: Kind): (s: Step<Row>)
    requires Valid(t)
    requires Column(kind) in raw && raw[Column(kind)].VStr?
    ensures s.result.Ok? <==> !Text.IsBlank(raw[Column(kind)].s)
    ensures s.result.Err? ==> s == Fail(t, Unprocessable)
    ensures s.result.Ok? ==>
              && Valid(s.table)
              && s.table.rows == t.rows[t.nextId := s.result.value]
              && s.result.value == CreateFields(raw, kind, Text.Strip(raw[Column(kind)].s))["id" := VInt(t.nextId)]
  {
    Text.StripEmptyIffBlank(raw[Column(kind)].s);
    InsertText(t, CleanText(raw, kind), CreateFields(raw, kind, CleanText(raw, kind)))
  }

  /** Store `fields` under a new id unless the cleaned text is empty. */
  function InsertText(t: Table, text: string, fields: Row): (s: Step<Row>)
    requires Valid(t)
    ensures s.result.Ok? <==> text != []
    ensures s.result.Err? ==> s == Fail(t, Unprocessable)
    ensures s.result.Ok? ==>
              && Valid(s.table)
              && s.table.rows == t.rows[t.nextId := s.result.value]
              && s.result.value == fields["id" := VInt(t.nextId)]
  {
    if text == [] then Fail(t, Unprocessable)
    else
      var (t', row) := Insert(t, fields);
      Step(t', Ok(row))
  }

  /** What a successful creation stores: the new id, the stripped text,
      the other allowed columns as sent, and no other column. */
  lemma CreateEntryStores(t: Table, raw: Row, kind: Kind)
    requires Valid(t)
    requires Column(kind) in raw && raw[Column(kind)].VStr? && !Text.IsBlank(raw[Column(kind)].s)
    ensures var row := CreateEntry(t, raw, kind).result.value;
      && (forall k :: k in row ==> k in Allowed(kind) || k == "id")
      && "id" in row && row["id"] == VInt(t.nextId)
      && Column(kind) in row && row[Column(kind)] == VStr(Text.Strip(raw[Column(kind)].s))
      && (forall k :: k in raw && k in Allowed(kind) && k != Column(kind) ==> k in row && row[k] == raw[k])
  {
    var f := CreateFields(raw, kind, Text.Strip(raw[Column(kind)].s));
    var row := CreateEntry(t, raw, kind).result.value;
    assert row == f["id" := VInt(t.nextId)];
    assert "id" !in Allowed(kind);
    forall k | k in raw && k in Allowed(kind) && k != Column(kind)
      ensures k in row && row[k] == raw[k]
    {
      assert k in f && f[k] == raw[k];
    }
  }

  /** The text a creation stores, `strip()` of a non-blank text, is never
      empty, neither starts nor ends with whitespace, and is a contiguous
      piece of the text sent. */
  lemma StoredTextTrimmed(sent: string)
    requires !Text.IsBlank(sent)
    ensures var stored := Text.Strip(sent);
      && stored != []
      && !Text.IsSpace(stored[0]) && !Text.IsSpace(stored[|stored| - 1])
      && exists i, j :: 0 <= i <= j <= |sent| && stored == sent[i..j]
  {
    Text.StripEmptyIffBlank(sent);
    Text.StripIsInfix(sent);
    var i := |sent| - |Text.TrimStart(sent)|;
    assert Text.Strip(sent) == sent[i..Text.StripEnd(sent)];
  }

  /** `strip()` maps a text and its stripped form to the same value, and
      both are blank or neither is. */
  lemma StripPadding(s: string)
    ensures Text.Strip(Text.Strip(s)) == Text.Strip(s)
    ensures Text.IsBlank(Text.Strip(s)) <==> Text.IsBlank(s)
  {
    Text.StripIdempotent(s);
    Text.StripEmptyIffBlank(s);
    Text.StripEmptyIffBlank(Text.Strip(s));
  }

  /** Whitespace around the text makes no difference to what is created. */
  lemma CreateIgnoresPadding(t: Table, raw: Row, kind: Kind, s: string)
    requires Valid(t)
    ensures CreateEntry(t, raw[Column(kind) := VStr(s)], kind)
         == CreateEntry(t, raw[Column(kind) := VStr(Text.Strip(s))], kind)
  {
    StripPadding(s);
    var col := Column(kind);
    var a, b := raw[col := VStr(s)], raw[col := VStr(Text.Strip(s))];
    assert CleanText(a, kind) == CleanText(b, kind);
    CreateFieldsAgree(a, b, kind, CleanText(b, kind));
    assert CreateFields(a, kind, CleanText(a, kind)) == CreateFields(b, kind, CleanText(b, kind));
  }

  // ----- update -----

  /** The update sends a text and it strips to nothing. */
  predicate BlankText(raw: Row, kind: Kind)
    requires StrOrNull(raw, Column(kind))
  {
    Given(raw, Column(kind)) && Text.IsBlank(raw[Column(kind)].s)
  }

  /** The columns an update writes: the non-null allowed columns of the
      payload, with `text` in place of the text sent. */
  function UpdateFields(raw: Row, kind: Kind, text: string): (fields: Row)
    ensures forall k :: k in fields <==> k in Allowed(kind) && Given(raw, k)
    ensures forall k :: k in fields && k != Column(kind) ==> k in raw && fields[k] == raw[k]
    ensures Given(raw, Column(kind)) ==> Column(kind) in fields && fields[Column(kind)] == VStr(text)
  {
    map k | k in raw && k in Allowed(kind) && raw[k] != VNull :: if k == Column(kind) then VStr(text) else raw[k]
  }

  /** Columns outside the allowed ones, and the value of a sent text, do
      not affect the columns an update writes. */
  lemma UpdateFieldsAgree(a: Row, b: Row, kind: Kind, text: string)
    requires AgreeOutsideText(a, b, kind)
    requires Given(a, Column(kind)) <==> Given(b, Column(kind))
    ensures UpdateFields(a, kind, text) == UpdateFields(b, kind, text)
  {
    var fa, fb := UpdateFields(a, kind, text), UpdateFields(b, kind, text);
    forall k | k in fa
      ensures k in fb && fa[k] == fb[k]
    {
    }
    assert fa.Keys == fb.Keys;
  }

  /** `update_nota` / `update_comentario`: a sent text that strips to
      nothing is refused with 422, before the row is looked for; otherwise
      the row is patched with the non-null allowed columns, or 404. */
  function UpdateEntry(t: Table, id: int, raw: Row, kind: Kind): (s: Step<Row>)
    requires StrOrNull(raw, Column(kind))
    ensures BlankText(raw, kind) ==> s == Fail(t, Unprocessable)
    ensures s.result.Ok? <==> !BlankText(raw, kind) && id in t.rows
    ensures !BlankText(raw, kind) && id !in t.rows ==> s == Fail(t, NotFound)
    ensures s.result.Err? ==> s.table == t
    ensures Valid(t) ==> Valid(s.table)
    ensures s.result.Ok? ==>
              && s.table == t.(rows := t.rows[id := s.result.value])
              && (forall k :: k in Allowed(kind) && k != Column(kind) && Given(raw, k) ==>
                    k in s.result.value && s.result.value[k] == raw[k])
              && (forall k :: k !in Allowed(kind) ==>
                    (k in s.result.value <==> k in t.rows[id]) &&
                    (k in t.rows[id] ==> s.result.value[k] == t.rows[id][k]))
              && (Given(raw, Column(kind)) ==>
                    Column(kind) in s.result.value &&
                    s.result.value[Column(kind)] == VStr(Text.Strip(raw[Column(kind)].s)))
              && (forall k :: k in Allowed(kind) && !Given(raw, k) && k in t.rows[id] ==>
                    k in s.result.value && s.result.value[k] == t.rows[id][k])
  {
    if BlankText(raw, kind) then Fail(t, Unprocessable)
    else UpdateOne(t, id, UpdateFields(raw, kind, CleanText(raw, kind)))
  }

  /** Whitespace around a sent text makes no difference to the update. */
  lemma UpdateIgnoresPadding(t: Table, id: int, raw: Row, kind: Kind, s: string)
    ensures UpdateEntry(t, id, raw[Column(kind) := VStr(s)], kind)
         == UpdateEntry(t, id, raw[Column(kind) := VStr(Text.Strip(s))], kind)
  {
    StripPadding(s);
    var col := Column(kind);
    var a, b := raw[col := VStr(s)], raw[col := VStr(Text.Strip(s))];
    assert CleanText(a, kind) == CleanText(b, kind);
    assert BlankText(a, kind) == BlankText(b, kind);
    UpdateFieldsAgree(a, b, kind, CleanText(b, kind));
    assert UpdateFields(a, kind, CleanText(a, kind)) == UpdateFields(b, kind, CleanText(b, kind));
  }

  /** `get_nota` / `get_comentario`: the stored entry, or 404. */
  function GetEntry(t: Table, id: int): (r: Result<Row>)
    ensures r.Ok? <==> id in t.rows
    ensures r.Ok? ==> r.value == t.rows[id]
    ensures r.Err? ==> r.status == NotFound
  {
    Store.Get(t, id)
  }
}

=== FILE: id_list.dfy ===
/** The comma-separated id lists of the two bulk endpoints,
    `GET /users/bulk?ids=...` and `GET /Adjunto/by-reporte-ids?ids=...`.
    Both parse the query string with the same comprehension, hand the ids to
    a service, and answer 400 when anything raises, the parse included:
    `int()` refuses a string of more than 4300 digits, the default of
    `sys.get_int_max_str_digits()`, and a string padded with one of the
    separators U+001C to U+001F, which `strip()` removes but `int()` does
    not skip.
 */
module IdList {
  import opened Wrappers
  import opened Text

  /** A comma piece is kept when, stripped, it is a non-empty run of digits;
      so blank pieces and signed numbers are dropped. */
  predicate Accepts(piece: string) {
    IsDigits(Strip(piece))
  }

  /** The most digits `int()` converts from a string before it raises `ValueError`. */
  const MaxStrDigits: nat := 4300

  /** Whitespace that `str.strip()` removes but `int()` refuses: `int()`
      skips only the ASCII spaces `\t` to `\r` and ` `, and the non-ASCII
      Unicode spaces. */
  predicate IntRefusesSpace(c: char) {
    '\U{1C}' <= c <= '\U{1F}'
  }

  /** The piece holds one of the separators `int()` refuses; in an accepted
      piece it can only be padding. */
  predicate BadPadding(piece: string) {
    exists i :: 0 <= i < |piece| && IntRefusesSpace(piece[i])
  }

  /** An accepted piece on which `int()` raises: it has too many digits,
      or padding `int()` does not skip. */
  predicate Raises(piece: string) {
    Accepts(piece) && (|Strip(piece)| > MaxStrDigits || BadPadding(piece))
  }

  /** Some piece of the list makes `int()` raise. */
  predicate SomeRaises(pieces: seq<string>) {
    exists j :: 0 <= j < |pieces| && Raises(pieces[j])
  }

  /** `int(piece)` of an accepted piece that does not raise: the value of
      its digits, the padding skipped. */
  function PieceValue(piece: string): nat
    requires Accepts(piece)
  {
    DigitsValue(Strip(piece))
  }

  /** `[int(x) for x in pieces if x.strip().isdigit()]`; `None` when some
      `int(x)` raises, which aborts the whole comprehension. */
  function ParsePieces(pieces: seq<string>): (ids: Option<seq<nat>>)
    ensures ids.Some? ==> |ids.value| <= |pieces|
  {
    if |pieces| == 0 then Some([])
    else if Raises(pieces[0]) then None
    else
      match ParsePieces(pieces[1..])
      case None => None
      case Some(rest) => Some(PieceIds(pieces[0]) + rest)
  }

  /** One step of the comprehension: the first piece, then the rest. */
  lemma ParsePiecesCons(pieces: seq<string>)
    requires |pieces| > 0
    ensures ParsePieces(pieces).Some? <==> !Raises(pieces[0]) && ParsePieces(pieces[1..]).Some?
    ensures ParsePieces(pieces).Some? ==>
              ParsePieces(pieces).value == PieceIds(pieces[0]) + ParsePieces(pieces[1..]).value
  {
  }

  /** The comprehension raises exactly when some accepted piece makes
      `int()` raise, wherever it stands in the list. */
  lemma {:induction false} ParsePiecesFails(pieces: seq<string>)
    ensures ParsePieces(pieces).None? <==> SomeRaises(pieces)
  {
    if |pieces| > 0 {
      ParsePiecesFails(pieces[1..]);
      if SomeRaises(pieces[1..]) {
        var j :| 0 <= j < |pieces[1..]| && Raises(pieces[1..][j]);
        assert Raises(pieces[j + 1]);
      }
      if SomeRaises(pieces) && !Raises(pieces[0]) {
        var j :| 0 <= j < |pieces| && Raises(pieces[j]);
        assert Raises(pieces[1..][j - 1]);
      }
    }
  }

  /** What one piece contributes: its value if accepted, nothing otherwise. */
  function PieceIds(p: string): seq<nat> {
    if Accepts(p) then [PieceValue(p)] else []
  }

  /** The id list parsed from the `ids` query parameter, or `None` when
      the parse raises. */
  function ParseIds(ids: string): (r: Option<seq<nat>>)
    ensures r.None? <==> SomeRaises(Split(ids, ','))
    ensures r.Some? ==> |r.value| <= |Split(ids, ',')|
  {
    ParsePiecesFails(Split(ids, ','));
    ParsePieces(Split(ids, ','))
  }

  /** Parsing distributes over concatenation of the pieces: each accepted
      piece contributes its value in place, so the order and the repeats of
      the accepted pieces are kept and nothing else is added. */
  lemma {:induction false} ParsePiecesAppend(a: seq<string>, b: seq<string>)
    ensures ParsePieces(a + b).Some? <==> ParsePieces(a).Some? && ParsePieces(b).Some?
    ensures ParsePieces(a + b).Some? ==>
              ParsePieces(a + b).value == ParsePieces(a).value + ParsePieces(b).value
  {
    if |a| > 0 {
      assert (a + b)[1..] == a[1..] + b;
      assert (a + b)[0] == a[0];
      ParsePiecesAppend(a[1..], b);
      if ParsePieces(a + b).Some? {
        assert PieceIds(a[0]) + (ParsePieces(a[1..]).value + ParsePieces(b).value)
            == (PieceIds(a[0]) + ParsePieces(a[1..]).value) + ParsePieces(b).value;
      }
    } else {
      assert a + b == b;
    }
  }

  /** When the parse succeeds, every id comes from an accepted piece, and
      every accepted piece gives one. */
  lemma {:induction false} ParsePiecesMembers(pieces: seq<string>)
    ensures ParsePieces(pieces).Some? ==>
      forall n :: n in ParsePieces(pieces).value <==>
        exists j :: 0 <= j < |pieces| && Accepts(pieces[j]) && PieceValue(pieces[j]) == n
  {
    if |pieces| > 0 && ParsePieces(pieces).Some? {
      ParsePiecesCons(pieces);
      ParsePiecesMembers(pieces[1..]);
      var ids, rest := ParsePieces(pieces).value, ParsePieces(pieces[1..]).value;
      assert ids == PieceIds(pieces[0]) + rest;
      forall n
        ensures n in ids <==>
          exists j :: 0 <= j < |pieces| && Accepts(pieces[j]) && PieceValue(pieces[j]) == n
      {
        if n in rest {
          var j :| 0 <= j < |pieces[1..]| && Accepts(pieces[1..][j]) && PieceValue(pieces[1..][j]) == n;
          assert pieces[j + 1] == pieces[1..][j];
        }
        if exists j :: 0 <= j < |pieces| && Accepts(pieces[j]) && PieceValue(pieces[j]) == n {
          var j :| 0 <= j < |pieces| && Accepts(pieces[j]) && PieceValue(pieces[j]) == n;
          if j > 0 {
            assert pieces[1..][j - 1] == pieces[j];
          }
        }
      }
    }
  }

  /** An empty query parameter gives the service an empty list. */
  lemma EmptyIds()
    ensures ParseIds("") == Some([])
  {
    assert Strip("") == "";
  }

  lemma DigitIsNotSpace(c: char)
    requires IsDigit(c)
    ensures !IsSpace(c)
  {
  }

  /** A single digit is accepted, with its value. */
  lemma OneDigitAccepted(c: char)
    requires IsDigit(c)
    ensures Accepts([c]) && PieceValue([c]) == DigitValue(c)
  {
    DigitIsNotSpace(c);
    assert TrimStart([c]) == [c];
    assert TrimEnd([c]) == [c];
    assert Strip([c]) == [c];
    assert [c][..0] == [];
    assert DigitsValue([c]) == DigitsValue([]) * 10 + DigitValue(c);
  }

  /** A digit between two spaces is accepted, with its value. */
  lemma PaddedDigitAccepted(c: char)
    requires IsDigit(c)
    ensures Accepts([' ', c, ' ']) && PieceValue([' ', c, ' ']) == DigitValue(c)
  {
    DigitIsNotSpace(c);
    assert [' ', c, ' '][1..] == [c, ' '];
    assert TrimStart([c, ' ']) == [c, ' '];
    assert TrimStart([' ', c, ' ']) == [c, ' '];
    assert [c, ' '][..1] == [c];
    assert TrimEnd([c]) == [c];
    assert TrimEnd([c, ' ']) == [c];
    OneDigitAccepted(c);
  }

  /** A minus sign is not a digit, so signed numbers are dropped. */
  lemma SignedRejected(c: char)
    requires IsDigit(c)
    ensures !Accepts(['-', c])
  {
    DigitIsNotSpace(c);
    assert TrimStart(['-', c]) == ['-', c];
    assert TrimEnd(['-', c]) == ['-', c];
  }

  /** A letter is dropped. */
  lemma LetterRejected(c: char)
    requires 'a' as int <= c as int <= 'z' as int
    ensures !Accepts([c])
  {
    assert TrimStart([c]) == [c];
    assert TrimEnd([c]) == [c];
  }

  /** A query string splits at every comma; the blank piece between two
      commas is kept, to be dropped by the filter. */
  lemma ExampleSplit()
    ensures Split(" 7 ,-3,,x,7", ',') == [" 7 ", "-3", "", "x", "7"]
  {
    var pieces := [" 7 ", "-3", "", "x", "7"];
    assert Join(pieces[4..], ',') == "7";
    assert Join(pieces[3..], ',') == "x,7";
    assert Join(pieces[2..], ',') == ",x,7";
    assert Join(pieces[1..], ',') == "-3,,x,7";
    assert Join(pieces, ',') == " 7 ,-3,,x,7";
    SplitJoin(pieces, ',');
  }

  /** The decimal renderings of a list of ids. */
  function Decimals(ns: seq<nat>): (ds: seq<string>)
    ensures |ds| == |ns|
  {
    if |ns| == 0 then [] else [Decimal(ns[0])] + Decimals(ns[1..])
  }

  /** How a client writes an id list: `",".join(str(n) for n in ns)`. */
  function Render(ns: seq<nat>): string {
    if |ns| == 0 then "" else Join(Decimals(ns), ',')
  }

  /** `int()` converts the decimal rendering of `n` without raising. */
  predicate Fits(n: nat) {
    |Decimal(n)| <= MaxStrDigits
  }

  predicate AllFit(ns: seq<nat>) {
    forall i :: 0 <= i < |ns| ==> Fits(ns[i])
  }

  lemma AllFitCons(ns: seq<nat>)
    requires |ns| > 0
    ensures AllFit(ns) <==> Fits(ns[0]) && AllFit(ns[1..])
  {
    if !AllFit(ns[1..]) {
      var i :| 0 <= i < |ns[1..]| && !Fits(ns[1..][i]);
      assert !Fits(ns[i + 1]);
    }
    if Fits(ns[0]) && AllFit(ns[1..]) {
      forall i | 0 <= i < |ns| ensures Fits(ns[i]) {
        if i > 0 { assert ns[i] == ns[1..][i - 1]; }
      }
    }
  }

  /** A rendered id is one accepted piece that reads back as the id, and
      `int()` raises on it exactly when it has too many digits. */
  lemma DecimalIsAccepted(n: nat)
    ensures ',' !in Decimal(n)
    ensures Accepts(Decimal(n)) && PieceValue(Decimal(n)) == n
    ensures Raises(Decimal(n)) <==> !Fits(n)
  {
    var d := Decimal(n);
    StripNoSpace(d);
    DecimalRoundTrip(n);
    assert !BadPadding(d) by {
      forall i | 0 <= i < |d| ensures !IntRefusesSpace(d[i]) {
        assert IsDigit(d[i]);
      }
    }
  }

  /** The pieces of rendered ids parse back to exactly those ids, unless
      one of them is too long for `int()`. */
  lemma {:induction false} ParseDecimals(ns: seq<nat>)
    ensures ParsePieces(Decimals(ns)) == if AllFit(ns) then Some(ns) else None
    ensures forall i :: 0 <= i < |ns| ==> ',' !in Decimals(ns)[i]
  {
    if |ns| > 0 {
      DecimalIsAccepted(ns[0]);
      ParseDecimals(ns[1..]);
      var ds := Decimals(ns);
      assert ds[0] == Decimal(ns[0]);
      assert ds[1..] == Decimals(ns[1..]);
      ParsePiecesCons(ds);
      AllFitCons(ns);
      if !Fits(ns[0]) {
        assert Raises(ds[0]);
      } else if !AllFit(ns[1..]) {
        assert ParsePieces(ds[1..]).None?;
      } else {
        assert PieceIds(ds[0]) == [ns[0]];
        assert [ns[0]] + ns[1..] == ns;
      }
    }
  }

  /** Round trip: the parser reads back exactly the ids a client renders,
      in order and with repeats, as long as each id has at most 4300
      digits; otherwise the parse raises. */
  lemma ParseRender(ns: seq<nat>)
    ensures ParseIds(Render(ns)) == if AllFit(ns) then Some(ns) else None
  {
    if |ns| == 0 {
      EmptyIds();
    } else {
      ParseDecimals(ns);
      SplitJoin(Decimals(ns), ',');
    }
  }

  /** A piece of 4301 zeros passes the digit filter, but `int()` refuses
      it, so the whole list fails to parse. */
  lemma LongPieceRefused()
    ensures var zeros := seq(MaxStrDigits + 1, _ => '0');
      Raises(zeros) && ParseIds(zeros) == None
  {
    var zeros := seq(MaxStrDigits + 1, _ => '0');
    assert forall i :: 0 <= i < |zeros| ==> zeros[i] == '0';
    StripNoSpace(zeros);
    SplitWithoutSep(zeros, ',');
    assert Split(zeros, ',')[0] == zeros;
  }

  /** A digit padded with the separator U+001C passes the filter, since
      `strip()` removes the separator, but `int()` refuses it, so the whole
      list fails to parse. */
  lemma SeparatorPaddingRefused(c: char)
    requires IsDigit(c)
    ensures Accepts(['\U{1C}', c]) && Raises(['\U{1C}', c])
    ensures ParseIds(['\U{1C}', c]) == None
  {
    var piece := ['\U{1C}', c];
    DigitIsNotSpace(c);
    assert piece[1..] == [c];
    assert TrimStart([c]) == [c];
    assert TrimStart(piece) == [c];
    assert TrimEnd([c]) == [c];
    assert Strip(piece) == [c];
    assert IntRefusesSpace(piece[0]);
    SplitWithoutSep(piece, ',');
    assert Split(piece, ',')[0] == piece;
  }

  /** The shape both bulk endpoints share. `fetch` stands for the service
      call with the parsed ids; `None` means that call raised. Any exception
      becomes a 400 response. */
  function BulkFetch<R>(ids: string, fetch: seq<nat> -> Option<R>): (r: Result<R>)
    ensures r.Ok? <==> ParseIds(ids).Some? && fetch(ParseIds(ids).value).Some?
    ensures r.Ok? ==> r.value == fetch(ParseIds(ids).value).value
    ensures r.Err? ==> r.status == BadRequest
  {
    match ParseIds(ids)
    case None => Err(BadRequest)
    case Some(ns) =>
      match fetch(ns)
      case Some(rows) => Ok(rows)
      case None => Err(BadRequest)
  }

  /** `bulk_users`: the users service receives the parsed id list. */
  function BulkUsers<R>(ids: string, getUsersByIds: seq<nat> -> Option<R>): (r: Result<R>)
    ensures r.Ok? <==> ParseIds(ids).Some? && getUsersByIds(ParseIds(ids).value).Some?
    ensures r.Ok? ==> r.value == getUsersByIds(ParseIds(ids).value).value
    ensures r.Err? ==> r.status == BadRequest
  {
    BulkFetch(ids, getUsersByIds)
  }

  /** The users service defines no `get_users_by_ids`, so the call raises
      `AttributeError` and every request to `/users/bulk` is answered 400. */
  lemma BulkUsersAlwaysRejected<R>(ids: string)
    ensures var r: Result<R> := BulkUsers(ids, (ns: seq<nat>) => None); r == Err(BadRequest)
  {
  }

  /** `list_adjuntos_by_reporte_ids`: the attachments service receives the parsed id list. */
  function AdjuntosByReporteIds<R>(ids: string, listByReportIds: seq<nat> -> Option<R>): (r: Result<R>)
    ensures r.Ok? <==> ParseIds(ids).Some? && listByReportIds(ParseIds(ids).value).Some?
    ensures r.Ok? ==> r.value == listByReportIds(ParseIds(ids).value).value
    ensures r.Err? ==> r.status == BadRequest
  {
    BulkFetch(ids, listByReportIds)
  }
}

=== FILE: notas_comunidad_service.dfy ===
/** The community notes service: a note a user attaches to a report, with
    an optional verdict (`es_veraz`) that the request models carry but the
    service never writes.
 */
module NotasComunidadService {
  import opened Wrappers
  import opened Rows
  import opened Store
  import opened CommunityEntries
  import Text

  const Veracity: string := "es_veraz"

  datatype NotaComunidadCreate = NotaComunidadCreate(reporteId: int, userId: int, nota: string, esVeraz: Option<bool>)

  datatype NotaComunidadUpdate = NotaComunidadUpdate(
    reporteId: Option<int>, userId: Option<int>, nota: Option<string>, esVeraz: Option<bool>)

  /** `model_dump()` of a `NotaComunidadCreate`. */
  function DumpNotaCreate(p: NotaComunidadCreate): (d: Row)
    ensures d.Keys == {"reporte_id", "user_id", "nota", Veracity}
    ensures d["reporte_id"] == VInt(p.reporteId) && d["user_id"] == VInt(p.userId)
    ensures d["nota"] == VStr(p.nota) && d[Veracity] == BoolValue(p.esVeraz)
  {
    map["reporte_id" := VInt(p.reporteId), "user_id" := VInt(p.userId),
        "nota" := VStr(p.nota), Veracity := BoolValue(p.esVeraz)]
  }

  /** `model_dump()` of a `NotaComunidadUpdate`. */
  function DumpNotaUpdate(p: NotaComunidadUpdate): (d: Row)
    ensures d.Keys == {"reporte_id", "user_id", "nota", Veracity}
    ensures d["reporte_id"] == IntValue(p.reporteId) && d["user_id"] == IntValue(p.userId)
    ensures d["nota"] == StrValue(p.nota) && d[Veracity] == BoolValue(p.esVeraz)
  {
    map["reporte_id" := IntValue(p.reporteId), "user_id" := IntValue(p.userId),
        "nota" := StrValue(p.nota), Veracity := BoolValue(p.esVeraz)]
  }

  /** `create_nota`: a note that strips to nothing is refused with 422;
      otherwise the report, the author and the stripped note are stored. */
  function CreateNota(t: Table, p: NotaComunidadCreate): (s: Step<Row>)
    requires Valid(t)
    ensures s.result.Ok? <==> !Text.IsBlank(p.nota)
    ensures s.result.Err? ==> s == Fail(t, Unprocessable)
    ensures s.result.Ok? ==>
              && s.table.rows == t.rows[t.nextId := s.result.value]
              && Veracity !in s.result.value
              && "reporte_id" in s.result.value && s.result.value["reporte_id"] == VInt(p.reporteId)
              && "user_id" in s.result.value && s.result.value["user_id"] == VInt(p.userId)
              && "nota" in s.result.value && s.result.value["nota"] == VStr(Text.Strip(p.nota))
  {
    var d := DumpNotaCreate(p);
    assert Column(Nota) == "nota";
    assert Allowed(Nota) == {"reporte_id", "user_id", "nota"};
    assert Veracity !in Allowed(Nota);
    assert "nota" in d && d["nota"] == VStr(p.nota);
    CreateEntry(t, d, Nota)
  }

  /** The verdict a client sends on creation is dropped: it does not change
      what is stored. */
  lemma CreateNotaDropsVeracity(t: Table, p: NotaComunidadCreate, v: Option<bool>)
    requires Valid(t)
    ensures CreateNota(t, p.(esVeraz := v)) == CreateNota(t, p)
  {
    var a, b := DumpNotaCreate(p.(esVeraz := v)), DumpNotaCreate(p);
    assert Veracity !in Allowed(Nota);
    assert a["nota"] == b["nota"];
    CreateFieldsAgree(a, b, Nota, Text.Strip(p.nota));
  }

  /** `get_nota`: the stored note, or 404. */
  function GetNota(t: Table, id: int): (r: Result<Row>)
    ensures r.Ok? <==> id in t.rows
    ensures r.Ok? ==> r.value == t.rows[id]
    ensures r.Err? ==> r.status == NotFound
  {
    GetEntry(t, id)
  }

  /** `update_nota`: a sent note that strips to nothing is refused with
      422; otherwise the sent fields are patched in, the note stripped, or
      404. A stored verdict is never touched. */
  function UpdateNota(t: Table, id: int, p: NotaComunidadUpdate): (s: Step<Row>)
    ensures p.nota.Some? && Text.IsBlank(p.nota.value) ==> s == Fail(t, Unprocessable)
    ensures s.result.Ok? <==> !(p.nota.Some? && Text.IsBlank(p.nota.value)) && id in t.rows
    ensures !(p.nota.Some? && Text.IsBlank(p.nota.value)) && id !in t.rows ==> s == Fail(t, NotFound)
    ensures s.result.Err? ==> s.table == t
    ensures s.result.Ok? ==>
              && s.table == t.(rows := t.rows[id := s.result.value])
              && (p.reporteId.Some? ==>
                    "reporte_id" in s.result.value && s.result.value["reporte_id"] == VInt(p.reporteId.value))
              && (p.reporteId.None? && "reporte_id" in t.rows[id] ==>
                    "reporte_id" in s.result.value && s.result.value["reporte_id"] == t.rows[id]["reporte_id"])
              && (p.userId.Some? ==>
                    "user_id" in s.result.value && s.result.value["user_id"] == VInt(p.userId.value))
              && (p.userId.None? && "user_id" in t.rows[id] ==>
                    "user_id" in s.result.value && s.result.value["user_id"] == t.rows[id]["user_id"])
              && (p.nota.None? && "nota" in t.rows[id] ==>
                    "nota" in s.result.value && s.result.value["nota"] == t.rows[id]["nota"])
              && (Veracity in s.result.value <==> Veracity in t.rows[id])
              && (Veracity in t.rows[id] ==> s.result.value[Veracity] == t.rows[id][Veracity])
              && (p.nota.Some? ==> "nota" in s.result.value && s.result.value["nota"] == VStr(Text.Strip(p.nota.value)))
  {
    var d := DumpNotaUpdate(p);
    assert Column(Nota) == "nota";
    assert Veracity !in Allowed(Nota);
    assert "reporte_id" in Allowed(Nota) && "user_id" in Allowed(Nota) && "nota" in Allowed(Nota);
    UpdateEntry(t, id, d, Nota)
  }

  /** The verdict a client sends on update is dropped as well. */
  lemma UpdateNotaIgnoresVeracity(t: Table, id: int, p: NotaComunidadUpdate, v: Option<bool>)
    ensures UpdateNota(t, id, p.(esVeraz := v)) == UpdateNota(t, id, p)
  {
    var a, b := DumpNotaUpdate(p.(esVeraz := v)), DumpNotaUpdate(p);
    assert Veracity !in Allowed(Nota);
    assert a["nota"] == b["nota"];
    assert CleanText(a, Nota) == CleanText(b, Nota);
    UpdateFieldsAgree(a, b, Nota, CleanText(b, Nota));
  }
}

=== FILE: reporte.dfy ===
/** The request models of a report (`ReporteCreate`, `ReporteUpdate`) and
    the null-tolerant counters of `ReporteOut`: their field shapes, which
    fields are required, and the defaults pydantic fills in.
 */
module ReporteModel {
  import opened Wrappers
  import opened Rows

  /** A report as a client creates it. */
  datatype ReporteCreate = ReporteCreate(
    userId: int,
    titulo: string,
    descripcion: Option<string>,
    categoria: Option<string>,
    lat: Option<real>,
    lon: Option<real>,
    direccion: Option<string>,
    distrito: Option<string>,
    estado: Option<string>,
    veracidadPorcentaje: Option<real>,
    cantidadUpvotes: int,
    cantidadDownvotes: int)

  /** A partial update of a report; every field may be left out. */
  datatype ReporteUpdate = ReporteUpdate(
    titulo: Option<string>,
    descripcion: Option<string>,
    categoria: Option<string>,
    lat: Option<real>,
    lon: Option<real>,
    direccion: Option<string>,
    distrito: Option<string>,
    estado: Option<string>,
    veracidadPorcentaje: Option<real>,
    cantidadUpvotes: Option<int>,
    cantidadDownvotes: Option<int>)

  /** Validate a JSON body as a `ReporteCreate`. */
  function ParseReporteCreate(j: Row): (r: Result<ReporteCreate>)
    ensures r.Ok? ==> "user_id" in j && j["user_id"] == VInt(r.value.userId)
    ensures r.Ok? ==> "titulo" in j && j["titulo"] == VStr(r.value.titulo)
    ensures r.Ok? && "veracidad_porcentaje" !in j ==> r.value.veracidadPorcentaje == Some(0.0)
    ensures r.Ok? && "cantidad_upvotes" !in j ==> r.value.cantidadUpvotes == 0
    ensures r.Ok? && "cantidad_downvotes" !in j ==> r.value.cantidadDownvotes == 0
    ensures r.Ok? && "distrito" !in j ==> r.value.distrito == None
  {
    var userId :- RequiredInt(j, "user_id");
    var titulo :- RequiredStr(j, "titulo");
    var descripcion :- OptionalStr(j, "descripcion", None);
    var categoria :- OptionalStr(j, "categoria", None);
    var lat :- OptionalReal(j, "lat", None);
    var lon :- OptionalReal(j, "lon", None);
    var direccion :- OptionalStr(j, "direccion", None);
    var distrito :- OptionalStr(j, "distrito", None);
    var estado :- OptionalStr(j, "estado", None);
    var veracidad :- OptionalReal(j, "veracidad_porcentaje", Some(0.0));
    var up :- IntWithDefault(j, "cantidad_upvotes", 0);
    var down :- IntWithDefault(j, "cantidad_downvotes", 0);
    Ok(ReporteCreate(userId, titulo, descripcion, categoria, lat, lon, direccion, distrito, estado, veracidad, up, down))
  }

  /** The fields of `ReporteCreate`, by their JSON names. */
  const ReporteCreateFields: set<string> :=
    {"user_id", "titulo", "descripcion", "categoria", "lat", "lon", "direccion", "distrito", "estado",
     "veracidad_porcentaje", "cantidad_upvotes", "cantidad_downvotes"}

  /** `model_dump()` of a `ReporteCreate`: every field, nulls included. */
  function DumpReporteCreate(p: ReporteCreate): (d: Row)
    ensures d.Keys == ReporteCreateFields
    ensures d["user_id"] == VInt(p.userId) && d["titulo"] == VStr(p.titulo)
    ensures d["veracidad_porcentaje"] == RealValue(p.veracidadPorcentaje)
    ensures d["cantidad_upvotes"] == VInt(p.cantidadUpvotes)
    ensures d["cantidad_downvotes"] == VInt(p.cantidadDownvotes)
  {
    map[
      "user_id" := VInt(p.userId),
      "titulo" := VStr(p.titulo),
      "descripcion" := StrValue(p.descripcion),
      "categoria" := StrValue(p.categoria),
      "lat" := RealValue(p.lat),
      "lon" := RealValue(p.lon),
      "direccion" := StrValue(p.direccion),
      "distrito" := StrValue(p.distrito),
      "estado" := StrValue(p.estado),
      "veracidad_porcentaje" := RealValue(p.veracidadPorcentaje),
      "cantidad_upvotes" := VInt(p.cantidadUpvotes),
      "cantidad_downvotes" := VInt(p.cantidadDownvotes)
    ]
  }

  /** Dumping a validated model and validating the dump gives the model back. */
  lemma ReporteCreateRoundTrip(p: ReporteCreate)
    ensures ParseReporteCreate(DumpReporteCreate(p)) == Ok(p)
  {
    CreateTextsRead(p);
    CreatePlaceRead(p);
    CreateNumbersRead(p);
  }

  lemma CreateTextsRead(p: ReporteCreate)
    ensures var d := DumpReporteCreate(p);
      && RequiredInt(d, "user_id") == Ok(p.userId)
      && RequiredStr(d, "titulo") == Ok(p.titulo)
      && OptionalStr(d, "descripcion", None) == Ok(p.descripcion)
      && OptionalStr(d, "categoria", None) == Ok(p.categoria)
      && OptionalStr(d, "estado", None) == Ok(p.estado)
  {
  }

  lemma CreatePlaceRead(p: ReporteCreate)
    ensures var d := DumpReporteCreate(p);
      && OptionalReal(d, "lat", None) == Ok(p.lat)
      && OptionalReal(d, "lon", None) == Ok(p.lon)
      && OptionalStr(d, "direccion", None) == Ok(p.direccion)
      && OptionalStr(d, "distrito", None) == Ok(p.distrito)
  {
  }

  lemma CreateNumbersRead(p: ReporteCreate)
    ensures var d := DumpReporteCreate(p);
      && OptionalReal(d, "veracidad_porcentaje", Some(0.0)) == Ok(p.veracidadPorcentaje)
      && IntWithDefault(d, "cantidad_upvotes", 0) == Ok(p.cantidadUpvotes)
      && IntWithDefault(d, "cantidad_downvotes", 0) == Ok(p.cantidadDownvotes)
  {
  }

  /** Only `user_id` and `titulo` are required: a body with just those two
      validates, and every other field takes its default (no percentage
      means 0, no counters mean 0, everything else is `None`). */
  lemma ReporteCreateDefaults(userId: int, titulo: string)
    ensures ParseReporteCreate(map["user_id" := VInt(userId), "titulo" := VStr(titulo)])
         == Ok(ReporteCreate(userId, titulo, None, None, None, None, None, None, None, Some(0.0), 0, 0))
  {
  }

  /** A body without `user_id` or without `titulo` is rejected with 422. */
  lemma ReporteCreateRequiredFields(j: Row)
    requires "user_id" !in j || "titulo" !in j
    ensures ParseReporteCreate(j) == Err(Unprocessable)
  {
  }

  /** Validate a JSON body as a `ReporteUpdate`. */
  function ParseReporteUpdate(j: Row): (r: Result<ReporteUpdate>)
    ensures r.Ok? && "cantidad_upvotes" in j ==> j["cantidad_upvotes"] == IntValue(r.value.cantidadUpvotes)
    ensures r.Ok? && "cantidad_downvotes" in j ==> j["cantidad_downvotes"] == IntValue(r.value.cantidadDownvotes)
    ensures r.Ok? && "veracidad_porcentaje" !in j ==> r.value.veracidadPorcentaje == None
  {
    var titulo :- OptionalStr(j, "titulo", None);
    var descripcion :- OptionalStr(j, "descripcion", None);
    var categoria :- OptionalStr(j, "categoria", None);
    var lat :- OptionalReal(j, "lat", None);
    var lon :- OptionalReal(j, "lon", None);
    var direccion :- OptionalStr(j, "direccion", None);
    var distrito :- OptionalStr(j, "distrito", None);
    var estado :- OptionalStr(j, "estado", None);
    var veracidad :- OptionalReal(j, "veracidad_porcentaje", None);
    var up :- OptionalInt(j, "cantidad_upvotes", None);
    var down :- OptionalInt(j, "cantidad_downvotes", None);
    Ok(ReporteUpdate(titulo, descripcion, categoria, lat, lon, direccion, distrito, estado, veracidad, up, down))
  }

  /** Every `ReporteUpdate` field is optional and defaults to `None`. */
  lemma ReporteUpdateDefaults()
    ensures ParseReporteUpdate(map[])
         == Ok(ReporteUpdate(None, None, None, None, None, None, None, None, None, None, None))
  {
  }
  /** The fields of `ReporteUpdate`: those of `ReporteCreate` but the author. */
  const ReporteUpdateFields: set<string> := ReporteCreateFields - {"user_id"}

  /** `model_dump()` of a `ReporteUpdate`: every field, nulls included. */
  function DumpReporteUpdate(p: ReporteUpdate): (d: Row)
    ensures d.Keys == ReporteUpdateFields
    ensures d["titulo"] == StrValue(p.titulo) && d["estado"] == StrValue(p.estado)
    ensures d["veracidad_porcentaje"] == RealValue(p.veracidadPorcentaje)
    ensures d["cantidad_upvotes"] == IntValue(p.cantidadUpvotes)
    ensures d["cantidad_downvotes"] == IntValue(p.cantidadDownvotes)
  {
    map[
      "titulo" := StrValue(p.titulo),
      "descripcion" := StrValue(p.descripcion),
      "categoria" := StrValue(p.categoria),
      "lat" := RealValue(p.lat),
      "lon" := RealValue(p.lon),
      "direccion" := StrValue(p.direccion),
      "distrito" := StrValue(p.distrito),
      "estado" := StrValue(p.estado),
      "veracidad_porcentaje" := RealValue(p.veracidadPorcentaje),
      "cantidad_upvotes" := IntValue(p.cantidadUpvotes),
      "cantidad_downvotes" := IntValue(p.cantidadDownvotes)
    ]
  }

  /** Dumping a validated update and validating the dump gives the update back. */
  lemma ReporteUpdateRoundTrip(p: ReporteUpdate)
    ensures ParseReporteUpdate(DumpReporteUpdate(p)) == Ok(p)
  {
    UpdateTextsRead(p);
    UpdatePlaceRead(p);
    UpdateNumbersRead(p);
  }

  lemma UpdateTextsRead(p: ReporteUpdate)
    ensures var d := DumpReporteUpdate(p);
      && OptionalStr(d, "titulo", None) == Ok(p.titulo)
      && OptionalStr(d, "descripcion", None) == Ok(p.descripcion)
      && OptionalStr(d, "categoria", None) == Ok(p.categoria)
      && OptionalStr(d, "estado", None) == Ok(p.estado)
  {
  }

  lemma UpdatePlaceRead(p: ReporteUpdate)
    ensures var d := DumpReporteUpdate(p);
      && OptionalReal(d, "lat", None) == Ok(p.lat)
      && OptionalReal(d, "lon", None) == Ok(p.lon)
      && OptionalStr(d, "direccion", None) == Ok(p.direccion)
      && OptionalStr(d, "distrito", None) == Ok(p.distrito)
  {
  }

  lemma UpdateNumbersRead(p: ReporteUpdate)
    ensures var d := DumpReporteUpdate(p);
      && OptionalReal(d, "veracidad_porcentaje", None) == Ok(p.veracidadPorcentaje)
      && OptionalInt(d, "cantidad_upvotes", None) == Ok(p.cantidadUpvotes)
      && OptionalInt(d, "cantidad_downvotes", None) == Ok(p.cantidadDownvotes)
  {
  }

  /** A counter of `ReporteOut`, read from a stored row: the column may be
      null, in which case the field is `None`, and a missing column
      defaults to 0. */
  function OutCounter(row: Row, k: string): (r: Result<Option<int>>)
    ensures k !in row ==> r == Ok(Some(0))
    ensures k in row && row[k] == VNull ==> r == Ok(None)
    ensures k in row && row[k].VInt? ==> r == Ok(Some(row[k].i))
  {
    OptionalInt(row, k, Some(0))
  }
}

=== FILE: reportes_service.dfy ===
/** The reports service: creating a report with a default truthfulness
    percentage, reading one, and the partial update that recomputes the
    percentage from the vote counters when a client sends counters without
    a percentage.
 */
module ReportesService {
  import opened Wrappers
  import opened Rows
  import opened Store
  import opened ReporteModel

  const Ver: string := "veracidad_porcentaje"
  const Up: string := "cantidad_upvotes"
  const Down: string := "cantidad_downvotes"

  /** The columns `create_reporte` writes; `distrito` is not among them. */
  const CreateAllowed: set<string> := ReporteCreateFields - {"distrito"}

  /** The columns `update_reporte` writes: neither the author nor `distrito`. */
  const UpdateAllowed: set<string> := CreateAllowed - {"user_id"}

  /** The share of upvotes among all votes, in percent; no votes means 0. */
  function Percentage(up: int, down: int): (p: real)
    ensures up >= 0 && down >= 0 ==> 0.0 <= p <= 100.0
    ensures up + down > 0 ==> p * (up + down) as real == 100.0 * up as real
    ensures up + down <= 0 ==> p == 0.0
  {
    var total := up + down;
    if total > 0 then (up as real / total as real) * 100.0 else 0.0
  }

  /** All upvotes give 100 percent and no upvotes give 0. */
  lemma PercentageExtremes(up: int, down: int)
    ensures up > 0 && down == 0 ==> Percentage(up, down) == 100.0
    ensures up == 0 ==> Percentage(up, down) == 0.0
  {
  }

  // ----- create_reporte -----

  /** The stored columns for a new report: the allowed columns of the
      dumped payload, with the percentage set to 0.0 when it is null. */
  function CreateFields(raw: Row): (fields: Row)
    ensures fields.Keys == raw.Keys * CreateAllowed + {Ver}
    ensures forall k :: k in fields && k != Ver ==> fields[k] == raw[k]
    ensures fields[Ver] == if Given(raw, Ver) then raw[Ver] else VReal(0.0)
  {
    var sanitized := Restrict(raw, CreateAllowed);
    if Given(sanitized, Ver) then sanitized else sanitized[Ver := VReal(0.0)]
  }

  /** `create_reporte`: always succeeds and stores one new row. */
  function CreateReporte(t: Table, p: ReporteCreate): (s: Step<Row>)
    requires Valid(t)
    ensures Valid(s.table) && s.result.Ok?
    ensures s.table.rows == t.rows[t.nextId := s.result.value]
    ensures s.result.value == CreateFields(DumpReporteCreate(p))["id" := VInt(t.nextId)]
  {
    var (t', row) := Insert(t, CreateFields(DumpReporteCreate(p)));
    Step(t', Ok(row))
  }

  /** The stored report holds exactly the allowed columns and the new id. */
  lemma CreateReporteColumns(t: Table, p: ReporteCreate)
    requires Valid(t)
    ensures CreateReporte(t, p).result.value.Keys == CreateAllowed + {"id"}
  {
    var raw := DumpReporteCreate(p);
    assert Ver in CreateAllowed;
    assert raw.Keys * CreateAllowed + {Ver} == CreateAllowed;
  }

  /** The stored report holds the new id, the author, the title and the
      counters as sent, and the percentage as sent or 0.0 when it is left
      out. */
  lemma CreateReporteStores(t: Table, p: ReporteCreate)
    requires Valid(t)
    ensures var row := CreateReporte(t, p).result.value;
      && "id" in row && row["id"] == VInt(t.nextId)
      && "user_id" in row && row["user_id"] == VInt(p.userId)
      && "titulo" in row && row["titulo"] == VStr(p.titulo)
      && Ver in row && row[Ver] == VReal(p.veracidadPorcentaje.GetOr(0.0))
      && Up in row && row[Up] == VInt(p.cantidadUpvotes)
      && Down in row && row[Down] == VInt(p.cantidadDownvotes)
  {
    var raw := DumpReporteCreate(p);
    var f := CreateFields(raw);
    assert "user_id" in CreateAllowed && "titulo" in CreateAllowed;
    assert Up in CreateAllowed && Down in CreateAllowed;
    assert "user_id" in f && "titulo" in f && Up in f && Down in f;
  }

  /** The district a client sends is never stored: two payloads that differ
      only in `distrito` create the same row. */
  lemma CreateIgnoresDistrito(t: Table, p: ReporteCreate, d: Option<string>)
    requires Valid(t)
    ensures CreateReporte(t, p.(distrito := d)) == CreateReporte(t, p)
  {
    var b := DumpReporteCreate(p);
    assert DumpReporteCreate(p.(distrito := d)) == b["distrito" := StrValue(d)];
    CreateFieldsIgnore(b, "distrito", StrValue(d));
  }

  /** A column outside the allowed set does not affect the stored columns. */
  lemma CreateFieldsIgnore(raw: Row, k: string, v: Value)
    requires k !in CreateAllowed
    ensures CreateFields(raw[k := v]) == CreateFields(raw)
  {
    var a, b := CreateFields(raw[k := v]), CreateFields(raw);
    assert a.Keys == b.Keys;
    assert forall c :: c in a ==> a[c] == b[c];
  }

  /** `get_reporte`: the stored report, or 404. */
  function GetReporte(t: Table, id: int): (r: Result<Row>)
    ensures r.Ok? <==> id in t.rows
    ensures r.Ok? ==> r.value == t.rows[id]
    ensures r.Err? ==> r.status == NotFound
  {
    Store.Get(t, id)
  }

  // ----- update_reporte -----

  /** Both counters are integers or null, as the integer columns hold. */
  predicate CountersTyped(r: Row) {
    IntOrNull(r, Up) && IntOrNull(r, Down)
  }

  /** `actual.get(k) or 0`: a stored counter, with null or missing as 0. */
  function StoredCount(row: Row, k: string): int
    requires IntOrNull(row, k)
  {
    if k in row && row[k].VInt? then row[k].i else 0
  }

  /** The counter used in the recomputation: the one sent, else the stored one. */
  function EffectiveCount(raw: Row, current: Row, k: string): int
    requires IntOrNull(raw, k) && IntOrNull(current, k)
  {
    if Given(raw, k) then raw[k].i else StoredCount(current, k)
  }

  /** The update recomputes the percentage when the payload has no
      percentage, carries at least one counter, and the report exists. */
  predicate Recomputes(raw: Row, current: Option<Row>) {
    !Given(raw, Ver) && (Given(raw, Up) || Given(raw, Down)) && current.Some?
  }

  /** The columns an update writes: the non-null allowed columns of the
      payload, plus the recomputed percentage when `Recomputes` holds.
      `current` is the stored report, if any. */
  function UpdateFields(raw: Row, current: Option<Row>): (fields: Row)
    requires CountersTyped(raw)
    requires current.Some? ==> CountersTyped(current.value)
    ensures fields.Keys <= UpdateAllowed
    ensures forall k :: k != Ver ==> (k in fields <==> k in UpdateAllowed && Given(raw, k))
    ensures forall k :: k in fields && k != Ver ==> k in raw && fields[k] == raw[k]
    ensures Given(raw, Ver) ==> Ver in fields && fields[Ver] == raw[Ver]
    ensures Recomputes(raw, current) ==>
              && Ver in fields
              && fields[Ver] == VReal(Percentage(EffectiveCount(raw, current.value, Up),
                                                 EffectiveCount(raw, current.value, Down)))
    ensures !Given(raw, Ver) && !Recomputes(raw, current) ==> Ver !in fields
  {
    var sanitized := RestrictGiven(raw, UpdateAllowed);
    if Recomputes(raw, current) then
      var up := EffectiveCount(raw, current.value, Up);
      var down := EffectiveCount(raw, current.value, Down);
      sanitized[Ver := VReal(Percentage(up, down))]
    else sanitized
  }

  lemma DumpCountersTyped(p: ReporteUpdate)
    ensures CountersTyped(DumpReporteUpdate(p))
  {
    var d := DumpReporteUpdate(p);
    assert d[Up] == IntValue(p.cantidadUpvotes);
    assert d[Down] == IntValue(p.cantidadDownvotes);
  }

  /** `update_reporte`: patch the report with `UpdateFields`, or 404. */
  function UpdateReporte(t: Table, id: int, p: ReporteUpdate): (s: Step<Row>)
    requires id in t.rows ==> CountersTyped(t.rows[id])
    ensures Valid(t) ==> Valid(s.table)
    ensures s.result.Ok? <==> id in t.rows
    ensures s.result.Err? ==> s == Fail(t, NotFound)
    ensures s.result.Ok? ==>
              && s.table.rows.Keys == t.rows.Keys
              && s.table.rows[id] == s.result.value
              && (forall other :: other in t.rows && other != id ==> s.table.rows[other] == t.rows[other])
              && (forall k :: k !in UpdateAllowed ==>
                    (k in s.result.value <==> k in t.rows[id]) &&
                    (k in t.rows[id] ==> s.result.value[k] == t.rows[id][k]))
    ensures s.result.Ok? ==>
              (DumpCountersTyped(p);
               s.result.value == t.rows[id] + UpdateFields(DumpReporteUpdate(p), Some(t.rows[id])))
  {
    var raw := DumpReporteUpdate(p);
    DumpCountersTyped(p);
    UpdateOne(t, id, UpdateFields(raw, Lookup(t, id)))
  }

  /** Neither the author nor the district of a report changes on update. */
  lemma UpdateKeepsAuthorAndDistrict(t: Table, id: int, p: ReporteUpdate)
    requires id in t.rows && CountersTyped(t.rows[id])
    ensures var row := UpdateReporte(t, id, p).result.value;
      && ("user_id" in row <==> "user_id" in t.rows[id])
      && ("user_id" in row ==> row["user_id"] == t.rows[id]["user_id"])
      && ("distrito" in row <==> "distrito" in t.rows[id])
      && ("distrito" in row ==> row["distrito"] == t.rows[id]["distrito"])
  {
  }

  /** A null field of the update leaves the stored column as it was: every
      column the update does not give, other than the percentage, keeps
      its stored value; and the percentage is kept too when it is neither
      sent nor recomputed. */
  lemma {:induction false} UpdateSkipsNulls(t: Table, id: int, p: ReporteUpdate)
    requires id in t.rows && CountersTyped(t.rows[id])
    ensures var row := UpdateReporte(t, id, p).result.value;
      forall k :: k != Ver && !Given(DumpReporteUpdate(p), k) ==>
        (k in row <==> k in t.rows[id]) && (k in t.rows[id] ==> row[k] == t.rows[id][k])
    ensures var row := UpdateReporte(t, id, p).result.value;
      !Given(DumpReporteUpdate(p), Ver) && !Recomputes(DumpReporteUpdate(p), Some(t.rows[id])) ==>
        (Ver in row <==> Ver in t.rows[id]) && (Ver in t.rows[id] ==> row[Ver] == t.rows[id][Ver])
  {
    var d := DumpReporteUpdate(p);
    DumpCountersTyped(p);
    var f := UpdateFields(d, Some(t.rows[id]));
    assert UpdateReporte(t, id, p).result.value == t.rows[id] + f;
  }

  /** After an update that sends a counter and no percentage, the stored
      percentage agrees with the stored counters. */
  lemma UpdateKeepsPercentageConsistent(t: Table, id: int, p: ReporteUpdate)
    requires id in t.rows && CountersTyped(t.rows[id])
    requires p.veracidadPorcentaje.None?
    requires p.cantidadUpvotes.Some? || p.cantidadDownvotes.Some?
    ensures var row := UpdateReporte(t, id, p).result.value;
      && CountersTyped(row)
      && Ver in row
      && row[Ver] == VReal(Percentage(StoredCount(row, Up), StoredCount(row, Down)))
  {
    var raw := DumpReporteUpdate(p);
    DumpCountersTyped(p);
    assert raw[Ver] == VNull;
    assert raw[Up] == IntValue(p.cantidadUpvotes);
    assert raw[Down] == IntValue(p.cantidadDownvotes);
    var old_ := t.rows[id];
    var fields := UpdateFields(raw, Some(old_));
    assert Recomputes(raw, Some(old_));
    var row := UpdateReporte(t, id, p).result.value;
    assert row == old_ + fields;
    assert StoredCount(row, Up) == EffectiveCount(raw, old_, Up);
    assert StoredCount(row, Down) == EffectiveCount(raw, old_, Down);
  }

  /** A percentage the client sends is stored as sent, counters or not. */
  lemma UpdateExplicitPercentage(t: Table, id: int, p: ReporteUpdate, v: real)
    requires id in t.rows && CountersTyped(t.rows[id])
    requires p.veracidadPorcentaje == Some(v)
    ensures UpdateReporte(t, id, p).result.value[Ver] == VReal(v)
  {
    var raw := DumpReporteUpdate(p);
    assert raw[Ver] == VReal(v);
  }
}

=== FILE: risk_scoring.dfy ===
/** `calcular_nivel_riesgo`: the danger level of an area of interest,
    computed from the reports of the last days that lie within the area's
    radius. The pipeline filters the report listing by date (failing open:
    any timestamp it cannot compare keeps the report), by coordinates and by
    distance, tallies the kept reports by category, classifies their number
    into three levels, and returns the first ten of them.

    The great-circle distance and the parsing of timestamps are parameters:
    `dist` stands for the Haversine function and `parse` for
    `datetime.fromisoformat` after `'Z'` is replaced by `'+00:00'`.
 */
module RiskScoring {
  import opened Wrappers
  import opened Rows
  import opened Store
  import Seqs

  /** The outcome of parsing a timestamp: it raises, or gives a time
      without or with a UTC offset, in seconds. */
  datatype Stamp = Unparseable | Naive(seconds: int) | Aware(seconds: int)

  /** The four coordinates in degrees to kilometres. */
  type Distance = (real, real, real, real) -> real

  const SecondsPerDay: int := 86400

  /** How many of the kept reports the answer lists. */
  const Shown: nat := 10

  /** `datetime.now() - timedelta(days=dias_analisis)`. */
  function Cutoff(now: int, days: int): int {
    now - days * SecondsPerDay
  }

  // ----- the date filter -----

  /** The only way a report is dropped for its age: `created_at` is a
      non-empty string that parses to a time without offset, earlier than
      the cutoff. A missing, null or empty stamp skips the check; a stamp
      that fails to parse, is not a string, or carries an offset (comparing
      it with the naive cutoff raises `TypeError`) raises inside the `try`,
      and the report is kept. */
  predicate Stale(r: Row, cutoff: int, parse: string -> Stamp) {
    && "created_at" in r && r["created_at"].VStr? && r["created_at"].s != []
    && parse(r["created_at"].s).Naive?
    && parse(r["created_at"].s).seconds < cutoff
  }

  // ----- the distance filter -----

  /** Both coordinates are present and not null. */
  predicate Located(r: Row) {
    Given(r, "lat") && Given(r, "lon")
  }

  /** A value as `math.radians` and `/` accept it: an int, a float or a bool. */
  function Number(v: Value): (x: Option<real>)
    ensures v.VInt? || v.VReal? || v.VBool? <==> x.Some?
  {
    match v
    case VInt(n) => Some(n as real)
    case VReal(y) => Some(y)
    case VBool(b) => Some(if b then 1.0 else 0.0)
    case _ => None
  }

  /** `area.get("radio_metros", 1000) / 1000`: the radius in kilometres. */
  function RadiusKm(area: Row): (km: Option<real>)
    ensures "radio_metros" !in area ==> km == Some(1.0)
    ensures "radio_metros" in area && area["radio_metros"].VInt? ==>
              km == Some(area["radio_metros"].i as real / 1000.0)
    ensures "radio_metros" in area && area["radio_metros"] == VNull ==> km == None
  {
    var v := if "radio_metros" in area then area["radio_metros"] else VInt(1000);
    match Number(v)
    case Some(x) => Some(x / 1000.0)
    case None => None
  }

  /** Every value the distance test reads is a number: the area's
      coordinates (a missing one raises `KeyError`), the report's, and the
      radius. */
  predicate Measurable(area: Row, r: Row) {
    && Located(r)
    && "lat" in area && Number(area["lat"]).Some?
    && "lon" in area && Number(area["lon"]).Some?
    && Number(r["lat"]).Some? && Number(r["lon"]).Some?
    && RadiusKm(area).Some?
  }

  function DistanceKm(area: Row, r: Row, dist: Distance): real
    requires Measurable(area, r)
  {
    dist(Number(area["lat"]).value, Number(area["lon"]).value, Number(r["lat"]).value, Number(r["lon"]).value)
  }

  /** The report lies within the radius, boundary included. */
  predicate Reaches(area: Row, r: Row, dist: Distance)
    requires Measurable(area, r)
  {
    DistanceKm(area, r, dist) <= RadiusKm(area).value
  }

  /** The loop raises on this report: it passes the date filter and has
      coordinates, but something the distance needs is not a number. */
  predicate Faulty(area: Row, r: Row, cutoff: int, parse: string -> Stamp) {
    !Stale(r, cutoff, parse) && Located(r) && !Measurable(area, r)
  }

  /** The report is kept. */
  predicate Selected(area: Row, r: Row, cutoff: int, parse: string -> Stamp, dist: Distance) {
    !Stale(r, cutoff, parse) && Measurable(area, r) && Reaches(area, r, dist)
  }

  /** One turn of the filtering loop: the report is skipped, kept, or
      makes the loop raise. */
  function Visit(area: Row, x: Row, cutoff: int, parse: string -> Stamp, dist: Distance): (r: Result<seq<Row>>)
    ensures r.Err? <==> Faulty(area, x, cutoff, parse)
    ensures r.Err? ==> r.status == InternalError
    ensures r.Ok? ==> r.value == if Selected(area, x, cutoff, parse, dist) then [x] else []
  {
    if Stale(x, cutoff, parse) || !Located(x) then Ok([])
    else if !Measurable(area, x) then Err(InternalError)
    else if Reaches(area, x, dist) then Ok([x])
    else Ok([])
  }

  /** The filtering loop over the report listing. Any exception it does not
      catch becomes a 500. */
  function Scan(area: Row, reports: seq<Row>, cutoff: int, parse: string -> Stamp, dist: Distance)
    : (r: Result<seq<Row>>)
    ensures r.Ok? <==> forall i :: 0 <= i < |reports| ==> !Faulty(area, reports[i], cutoff, parse)
    ensures r.Err? ==> r.status == InternalError
    ensures r.Ok? ==> |r.value| <= |reports|
    ensures r.Ok? ==> forall x :: x in r.value <==> x in reports && Selected(area, x, cutoff, parse, dist)
  {
    if |reports| == 0 then Ok([])
    else
      assert forall i :: 1 <= i < |reports| ==> reports[i] == reports[1..][i - 1];
      var head :- Visit(area, reports[0], cutoff, parse, dist);
      var rest :- Scan(area, reports[1..], cutoff, parse, dist);
      Ok(head + rest)
  }

  /** The kept reports come in the order of the listing: scanning two
      listings one after the other keeps what each scan keeps, in turn. */
  lemma {:induction false} ScanAppend(area: Row, a: seq<Row>, b: seq<Row>, cutoff: int,
                                      parse: string -> Stamp, dist: Distance)
    requires Scan(area, a, cutoff, parse, dist).Ok? && Scan(area, b, cutoff, parse, dist).Ok?
    ensures Scan(area, a + b, cutoff, parse, dist)
         == Ok(Scan(area, a, cutoff, parse, dist).value + Scan(area, b, cutoff, parse, dist).value)
  {
    var tail := Scan(area, b, cutoff, parse, dist).value;
    if |a| == 0 {
      Seqs.ConcatEmpty(b);
      Seqs.ConcatEmpty(tail);
    } else {
      Seqs.ConcatHead(a, b);
      var head := Visit(area, a[0], cutoff, parse, dist).value;
      var rest := Scan(area, a[1..], cutoff, parse, dist).value;
      ScanAppend(area, a[1..], b, cutoff, parse, dist);
      Seqs.ConcatAssoc(head, rest, tail);
    }
  }

  /** A report exactly on the boundary of the radius is kept. */
  lemma BoundaryIncluded(area: Row, r: Row, cutoff: int, parse: string -> Stamp, dist: Distance)
    requires !Stale(r, cutoff, parse) && Measurable(area, r)
    requires DistanceKm(area, r, dist) == RadiusKm(area).value
    ensures Scan(area, [r], cutoff, parse, dist) == Ok([r])
  {
    assert [r][0] == r && [r][1..] == [];
    assert Scan(area, [], cutoff, parse, dist) == Ok([]);
    assert Visit(area, r, cutoff, parse, dist) == Ok([r]);
    assert [r] + [] == [r];
  }

  /** A report whose timestamp the parser cannot read, or reads with an
      offset, is not dropped for its age. */
  lemma UnknownAgeKept(r: Row, cutoff: int, parse: string -> Stamp)
    requires "created_at" in r && r["created_at"].VStr?
    requires !parse(r["created_at"].s).Naive?
    ensures !Stale(r, cutoff, parse)
  {
  }

  // ----- the tally -----

  /** `reporte.get("categoria", "Otro")`: a missing category counts as
      "Otro", a null one is a key of its own. */
  function Category(r: Row): (c: Value)
    ensures "categoria" !in r ==> c == VStr("Otro")
    ensures "categoria" in r ==> c == r["categoria"]
  {
    if "categoria" in r then r["categoria"] else VStr("Otro")
  }

  /** Python's `==` on two scalars: an int, a float and a bool are equal
      when their numbers are (`1 == 1.0 == True`), and any other value
      equals only itself. Equal values hash alike, so a dict merges them. */
  predicate PyEq(a: Value, b: Value) {
    if Number(a).Some? || Number(b).Some? then Number(a) == Number(b) else a == b
  }

  /** The key a dict files a value under: every number in one
      representation, every other value as it is. */
  function DictKey(v: Value): (k: Value)
    ensures PyEq(k, v)
    ensures !k.VInt? && !k.VBool?
  {
    if Number(v).Some? then VReal(Number(v).value) else v
  }

  /** Two values share a dict key exactly when Python finds them equal. */
  lemma DictKeyEq(a: Value, b: Value)
    ensures DictKey(a) == DictKey(b) <==> PyEq(a, b)
  {
    if Number(a).Some? && Number(b).None? {
      assert !DictKey(b).VReal?;
    }
    if Number(b).Some? && Number(a).None? {
      assert !DictKey(a).VReal?;
    }
  }

  /** The dict key of each kept report's category, in order. */
  function CategoryKeys(rs: seq<Row>): (cs: seq<Value>)
    ensures |cs| == |rs|
    ensures forall i :: 0 <= i < |rs| ==> cs[i] == DictKey(Category(rs[i]))
  {
    seq(|rs|, i requires 0 <= i < |rs| => DictKey(Category(rs[i])))
  }

  /** `tipos_delitos`: the per-category counts the loop builds. */
  function Tally(rs: seq<Row>): (m: map<Value, nat>)
    ensures forall c :: c in m ==> m[c] >= 1
  {
    if |rs| == 0 then map[]
    else
      var m := Tally(rs[..|rs| - 1]);
      var c := DictKey(Category(rs[|rs| - 1]));
      m[c := (if c in m then m[c] else 0) + 1]
  }

  /** Each category key is counted exactly as often as it occurs among the
      kept reports, and only occurring keys are in the map. With `DictKeyEq`,
      the count under a key is the number of kept reports whose category
      Python finds equal to it. */
  lemma {:induction false} TallyCounts(rs: seq<Row>)
    ensures forall c :: c in Tally(rs) <==> c in multiset(CategoryKeys(rs))
    ensures forall c :: c in Tally(rs) ==> Tally(rs)[c] == multiset(CategoryKeys(rs))[c]
  {
    if |rs| > 0 {
      var front := rs[..|rs| - 1];
      TallyCounts(front);
      assert CategoryKeys(rs) == CategoryKeys(front) + [DictKey(Category(rs[|rs| - 1]))];
    }
  }

  /** The sum of the values of a count map. */
  ghost function Total(m: map<Value, nat>): nat
    decreases |m|
  {
    if m == map[] then 0
    else
      var k :| k in m;
      m[k] + Total(m - {k})
  }

  /** The sum does not depend on which key is taken out first. */
  lemma {:induction false} TotalRemove(m: map<Value, nat>, k: Value)
    requires k in m
    ensures Total(m) == m[k] + Total(m - {k})
    decreases |m|
  {
    assert m != map[];
    var j :| j in m && Total(m) == m[j] + Total(m - {j});
    if j != k {
      assert |m - {j}| < |m|;
      TotalRemove(m - {j}, k);
      TotalRemove(m - {k}, j);
      assert m - {j} - {k} == m - {k} - {j};
    }
  }

  /** The counts of `tipos_delitos` add up to the number of kept reports. */
  lemma {:induction false} TallyTotal(rs: seq<Row>)
    ensures Total(Tally(rs)) == |rs|
  {
    if |rs| > 0 {
      var front := rs[..|rs| - 1];
      TallyTotal(front);
      var m := Tally(front);
      var c := DictKey(Category(rs[|rs| - 1]));
      var m' := m[c := (if c in m then m[c] else 0) + 1];
      TotalRemove(m', c);
      assert m' - {c} == m - {c};
      if c in m {
        TotalRemove(m, c);
      } else {
        assert m - {c} == m;
      }
    }
  }

  // ----- the classification -----

  datatype Level = Bajo | Medio | Alto {
    /** The label the answer carries. */
    function Name(): string {
      match this
      case Bajo => "Bajo"
      case Medio => "Medio"
      case Alto => "Alto"
    }

    function Rank(): nat {
      match this
      case Bajo => 0
      case Medio => 1
      case Alto => 2
    }
  }

  /** `nivel_peligro` for a number of kept reports. */
  function Classify(total: nat): (l: Level)
    ensures l == Bajo <==> total <= 3
    ensures l == Medio <==> 4 <= total <= 10
    ensures l == Alto <==> total > 10
  {
    if total == 0 then Bajo
    else if total <= 3 then Bajo
    else if total <= 10 then Medio
    else Alto
  }

  /** More reports never lower the level. */
  lemma ClassifyMonotone(a: nat, b: nat)
    requires a <= b
    ensures Classify(a).Rank() <= Classify(b).Rank()
  {
  }

  // ----- the answer -----

  datatype RiskReport = RiskReport(
    areaId: int,
    areaNombre: Option<Value>,
    nivelPeligro: Level,
    totalReportes: nat,
    tiposDelitos: map<Value, nat>,
    diasAnalisis: int,
    reportesRecientes: seq<Row>)

  function Min(a: nat, b: nat): nat {
    if a <= b then a else b
  }

  /** `calcular_nivel_riesgo(area_id, dias_analisis)` over the report
      listing `reports`, at time `now`. */
  function AssessRisk(areas: Table, areaId: int, reports: seq<Row>, days: int, now: int,
                      parse: string -> Stamp, dist: Distance): (r: Result<RiskReport>)
    ensures areaId !in areas.rows ==> r == Err(NotFound)
    ensures areaId in areas.rows ==>
              (r.Ok? <==> forall i :: 0 <= i < |reports| ==>
                            !Faulty(areas.rows[areaId], reports[i], Cutoff(now, days), parse))
    ensures r.Err? && areaId in areas.rows ==> r.status == InternalError
    ensures r.Ok? ==>
              && areaId in areas.rows
              && r.value.areaId == areaId
              && r.value.diasAnalisis == days
              && r.value.totalReportes <= |reports|
              && r.value.nivelPeligro == Classify(r.value.totalReportes)
              && |r.value.reportesRecientes| == Min(Shown, r.value.totalReportes)
              && (forall x :: x in r.value.reportesRecientes ==>
                    x in reports && Selected(areas.rows[areaId], x, Cutoff(now, days), parse, dist))
  {
    var area :- Store.Get(areas, areaId);
    var kept :- Scan(area, reports, Cutoff(now, days), parse, dist);
    var total := |kept|;
    Ok(RiskReport(
      areaId,
      Rows.Get(area, "nombre"),
      Classify(total),
      total,
      Tally(kept),
      days,
      kept[..Min(Shown, total)]))
  }

  /** The answer agrees with the kept reports: their number is
      `total_reportes`, the tally counts each category as often as it
      occurs among them and adds up to that number, and the listed reports
      are the first of them, in order. */
  lemma AssessRiskSummary(areas: Table, areaId: int, reports: seq<Row>, days: int, now: int,
                          parse: string -> Stamp, dist: Distance)
    requires AssessRisk(areas, areaId, reports, days, now, parse, dist).Ok?
    ensures var out := AssessRisk(areas, areaId, reports, days, now, parse, dist).value;
      var kept := Scan(areas.rows[areaId], reports, Cutoff(now, days), parse, dist).value;
      && out.totalReportes == |kept|
      && Total(out.tiposDelitos) == out.totalReportes
      && (forall c :: c in out.tiposDelitos ==> out.tiposDelitos[c] == multiset(CategoryKeys(kept))[c])
      && (forall c :: c in multiset(CategoryKeys(kept)) ==> c in out.tiposDelitos)
      && out.reportesRecientes == kept[..Min(Shown, |kept|)]
  {
    var kept := Scan(areas.rows[areaId], reports, Cutoff(now, days), parse, dist).value;
    TallyCounts(kept);
    TallyTotal(kept);
  }
}

=== FILE: rows.dfy ===
/** JSON-like rows: the dictionaries the services build and the record
    store keeps, plus the field readers that pydantic applies when it turns
    a JSON body into a request model.
 */
module Rows {
  import opened Wrappers

  /** A JSON scalar as it appears in a request body or a stored row. */
  datatype Value = VNull | VBool(b: bool) | VInt(i: int) | VReal(r: real) | VStr(s: string)

  /** A dictionary from column name to value. */
  type Row = map<string, Value>

  /** Python's `d.get(k)`: `None` when the key is missing. */
  function Get(r: Row, k: string): Option<Value> {
    if k in r then Some(r[k]) else None
  }

  /** `d.get(k) is not None`: the key is present with a non-null value. */
  predicate Given(r: Row, k: string) {
    k in r && r[k] != VNull
  }

  /** `{k: v for k, v in raw.items() if k in allowed}`. */
  function Restrict(raw: Row, allowed: set<string>): (r: Row)
    ensures r.Keys == raw.Keys * allowed
    ensures forall k :: k in r ==> r[k] == raw[k]
  {
    map k | k in raw && k in allowed :: raw[k]
  }

  /** `{k: v for k, v in raw.items() if k in allowed and v is not None}`. */
  function RestrictGiven(raw: Row, allowed: set<string>): (r: Row)
    ensures forall k :: k in r <==> k in allowed && Given(raw, k)
    ensures forall k :: k in r ==> k in raw && r[k] == raw[k]
  {
    map k | k in raw && k in allowed && raw[k] != VNull :: raw[k]
  }

  /** The value `k` holds in `r` has type `str` or is null. */
  predicate StrOrNull(r: Row, k: string) {
    k in r ==> r[k].VStr? || r[k].VNull?
  }

  /** The value `k` holds in `r` has type `int` or is null. */
  predicate IntOrNull(r: Row, k: string) {
    k in r ==> r[k].VInt? || r[k].VNull?
  }

  // Dumping typed optional fields back to JSON (`model_dump`).

  function IntValue(o: Option<int>): Value {
    match o
    case Some(n) => VInt(n)
    case None => VNull
  }

  function RealValue(o: Option<real>): Value {
    match o
    case Some(x) => VReal(x)
    case None => VNull
  }

  function StrValue(o: Option<string>): Value {
    match o
    case Some(s) => VStr(s)
    case None => VNull
  }

  function BoolValue(o: Option<bool>): Value {
    match o
    case Some(b) => VBool(b)
    case None => VNull
  }

  // Pydantic field readers. A required field must be present with its
  // type; an `Optional[T] = d` field takes `d` when absent and `None` when
  // null; a `T = d` field takes `d` when absent and rejects null. A JSON
  // integer is accepted where a float is declared. Anything else is a
  // request validation error, which FastAPI answers with 422.

  function AsReal(v: Value): Option<real> {
    match v
    case VInt(n) => Some(n as real)
    case VReal(x) => Some(x)
    case _ => None
  }

  function RequiredInt(j: Row, k: string): (r: Result<int>)
    ensures r.Ok? <==> k in j && j[k].VInt?
    ensures r.Ok? ==> j[k] == VInt(r.value)
  {
    match Get(j, k)
    case Some(VInt(n)) => Ok(n)
    case _ => Err(Unprocessable)
  }

  function RequiredStr(j: Row, k: string): (r: Result<string>)
    ensures r.Ok? <==> k in j && j[k].VStr?
    ensures r.Ok? ==> j[k] == VStr(r.value)
  {
    match Get(j, k)
    case Some(VStr(s)) => Ok(s)
    case _ => Err(Unprocessable)
  }

  function RequiredReal(j: Row, k: string): (r: Result<real>)
    ensures r.Ok? <==> k in j && AsReal(j[k]).Some?
    ensures r.Ok? ==> AsReal(j[k]) == Some(r.value)
  {
    match Get(j, k)
    case Some(v) => if AsReal(v).Some? then Ok(AsReal(v).value) else Err(Unprocessable)
    case None => Err(Unprocessable)
  }

  function IntWithDefault(j: Row, k: string, default: int): (r: Result<int>)
    ensures k !in j ==> r == Ok(default)
    ensures k in j ==> (r.Ok? <==> j[k].VInt?)
  {
    match Get(j, k)
    case None => Ok(default)
    case Some(VInt(n)) => Ok(n)
    case Some(_) => Err(Unprocessable)
  }

  function OptionalInt(j: Row, k: string, default: Option<int>): (r: Result<Option<int>>)
    ensures k !in j ==> r == Ok(default)
    ensures k in j ==> (r == Ok(None) <==> j[k] == VNull)
    ensures k in j ==> (r.Ok? <==> j[k].VNull? || j[k].VInt?)
  {
    match Get(j, k)
    case None => Ok(default)
    case Some(VNull) => Ok(None)
    case Some(VInt(n)) => Ok(Some(n))
    case Some(_) => Err(Unprocessable)
  }

  function OptionalReal(j: Row, k: string, default: Option<real>): (r: Result<Option<real>>)
    ensures k !in j ==> r == Ok(default)
    ensures k in j ==> (r == Ok(None) <==> j[k] == VNull)
    ensures k in j ==> (r.Ok? <==> j[k].VNull? || AsReal(j[k]).Some?)
  {
    match Get(j, k)
    case None => Ok(default)
    case Some(VNull) => Ok(None)
    case Some(v) => if AsReal(v).Some? then Ok(AsReal(v)) else Err(Unprocessable)
  }

  function OptionalStr(j: Row, k: string, default: Option<string>): (r: Result<Option<string>>)
    ensures k !in j ==> r == Ok(default)
    ensures k in j ==> (r == Ok(None) <==> j[k] == VNull)
    ensures k in j ==> (r.Ok? <==> j[k].VNull? || j[k].VStr?)
  {
    match Get(j, k)
    case None => Ok(default)
    case Some(VNull) => Ok(None)
    case Some(VStr(s)) => Ok(Some(s))
    case Some(_) => Err(Unprocessable)
  }

  function OptionalBool(j: Row, k: string, default: Option<bool>): (r: Result<Option<bool>>)
    ensures k !in j ==> r == Ok(default)
    ensures k in j ==> (r == Ok(None) <==> j[k] == VNull)
    ensures k in j ==> (r.Ok? <==> j[k].VNull? || j[k].VBool?)
  {
    match Get(j, k)
    case None => Ok(default)
    case Some(VNull) => Ok(None)
    case Some(VBool(b)) => Ok(Some(b))
    case Some(_) => Err(Unprocessable)
  }
}

=== FILE: seguidores_service.dfy ===
/** The followers service: a follow relation is a row holding who follows
    (`seguidor_id`) and who is followed (`seguido_id`). Creating one refuses
    a self-follow (422) and a pair that already exists (409); a partial
    update only checks the self-follow when both ids are sent; unfollowing
    deletes every row of the pair and answers 404 when there was none.
 */
module SeguidoresService {
  import opened Wrappers
  import opened Rows
  import opened Store

  const Follower: string := "seguidor_id"
  const Followed: string := "seguido_id"

  /** `SeguidorCreate`: both ids are required integers. */
  datatype SeguidorCreate = SeguidorCreate(seguidorId: int, seguidoId: int)

  /** `SeguidorUpdate`: both ids are optional. */
  datatype SeguidorUpdate = SeguidorUpdate(seguidorId: Option<int>, seguidoId: Option<int>)

  /** The pair a stored row relates, when both ids are integers. */
  function Edge(row: Row): Option<(int, int)> {
    if Follower in row && row[Follower].VInt? && Followed in row && row[Followed].VInt?
    then Some((row[Follower].i, row[Followed].i))
    else None
  }

  /** The row filter `seguidor_id=eq.a&seguido_id=eq.b`. */
  function PairFilter(a: int, b: int): Row -> bool {
    row => Edge(row) == Some((a, b))
  }

  /** Some stored row says that `a` follows `b`. */
  predicate Follows(t: Table, a: int, b: int) {
    exists id :: id in t.rows && Edge(t.rows[id]) == Some((a, b))
  }

  /** No stored row relates a user to themselves. */
  predicate NoSelfFollow(t: Table) {
    forall id :: id in t.rows && Edge(t.rows[id]).Some? ==> Edge(t.rows[id]).value.0 != Edge(t.rows[id]).value.1
  }

  /** No pair is stored twice. */
  predicate NoDuplicates(t: Table) {
    forall i, j :: i in t.rows && j in t.rows && i != j && Edge(t.rows[i]).Some? ==> Edge(t.rows[i]) != Edge(t.rows[j])
  }

  // ----- create_seguidor -----

  /** The columns `create_seguidor` sends: exactly the two ids. */
  function CreateFields(p: SeguidorCreate): (fields: Row)
    ensures fields.Keys == {Follower, Followed}
    ensures Edge(fields) == Some((p.seguidorId, p.seguidoId))
  {
    map[Follower := VInt(p.seguidorId), Followed := VInt(p.seguidoId)]
  }

  /** `create_seguidor`: a self-follow is refused with 422 before the store
      is asked; an existing pair is refused with 409; otherwise the pair is
      stored under a new id. Nothing is written on error. */
  function CreateSeguidor(t: Table, p: SeguidorCreate): (s: Step<Row>)
    requires Valid(t)
    ensures p.seguidorId == p.seguidoId ==> s == Fail(t, Unprocessable)
    ensures p.seguidorId != p.seguidoId && Follows(t, p.seguidorId, p.seguidoId) ==> s == Fail(t, Conflict)
    ensures s.result.Ok? <==> p.seguidorId != p.seguidoId && !Follows(t, p.seguidorId, p.seguidoId)
    ensures s.result.Ok? ==>
              && Valid(s.table)
              && s.table.rows == t.rows[t.nextId := s.result.value]
              && s.result.value.Keys == {Follower, Followed, "id"}
              && s.result.value["id"] == VInt(t.nextId)
              && Edge(s.result.value) == Some((p.seguidorId, p.seguidoId))
              && Follows(s.table, p.seguidorId, p.seguidoId)
  {
    var sanitized := CreateFields(p);
    if sanitized[Follower] == sanitized[Followed] then Fail(t, Unprocessable)
    else if Matching(t, PairFilter(p.seguidorId, p.seguidoId)) != {} then
      FollowsIffMatching(t, p.seguidorId, p.seguidoId);
      Fail(t, Conflict)
    else
      FollowsIffMatching(t, p.seguidorId, p.seguidoId);
      var (t', row) := Insert(t, sanitized);
      assert Edge(row) == Edge(sanitized);
      assert t'.rows[t.nextId] == row;
      Step(t', Ok(row))
  }

  /** `check_if_exists` answers with a row exactly when the pair is stored. */
  lemma FollowsIffMatching(t: Table, a: int, b: int)
    ensures Follows(t, a, b) <==> Matching(t, PairFilter(a, b)) != {}
  {
    var m := Matching(t, PairFilter(a, b));
    if Follows(t, a, b) {
      var id :| id in t.rows && Edge(t.rows[id]) == Some((a, b));
      assert id in m;
    }
    if !Follows(t, a, b) {
      assert forall id :: id !in m;
      assert m == {};
    }
  }

  /** Creation keeps the follow graph free of self-follows and duplicates. */
  lemma CreateKeepsGraphSimple(t: Table, p: SeguidorCreate)
    requires Valid(t) && NoSelfFollow(t) && NoDuplicates(t)
    ensures NoSelfFollow(CreateSeguidor(t, p).table)
    ensures NoDuplicates(CreateSeguidor(t, p).table)
  {
    var s := CreateSeguidor(t, p);
    if s.result.Ok? {
      var n := t.nextId;
      forall i, j | i in s.table.rows && j in s.table.rows && i != j && Edge(s.table.rows[i]).Some?
        ensures Edge(s.table.rows[i]) != Edge(s.table.rows[j])
      {
        if i == n {
          assert j in t.rows;
        } else if j == n {
          assert i in t.rows;
        } else {
          assert s.table.rows[i] == t.rows[i] && s.table.rows[j] == t.rows[j];
        }
      }
    }
  }

  /** `get_seguidor`: the stored relation, or 404. */
  function GetSeguidor(t: Table, id: int): (r: Result<Row>)
    ensures r.Ok? <==> id in t.rows
    ensures r.Ok? ==> r.value == t.rows[id]
    ensures r.Err? ==> r.status == NotFound
  {
    Store.Get(t, id)
  }

  // ----- update_seguidor -----

  /** The columns `update_seguidor` sends: the ids that are not null. */
  function UpdateFields(p: SeguidorUpdate): (fields: Row)
    ensures Follower in fields <==> p.seguidorId.Some?
    ensures Followed in fields <==> p.seguidoId.Some?
    ensures p.seguidorId.Some? ==> fields[Follower] == VInt(p.seguidorId.value)
    ensures p.seguidoId.Some? ==> fields[Followed] == VInt(p.seguidoId.value)
    ensures fields.Keys <= {Follower, Followed}
  {
    RestrictGiven(map[Follower := IntValue(p.seguidorId), Followed := IntValue(p.seguidoId)], {Follower, Followed})
  }

  /** `update_seguidor`: the self-follow check only applies when both ids
      are sent; then the row is patched, or 404. The existing-pair check of
      creation is not repeated. */
  function UpdateSeguidor(t: Table, id: int, p: SeguidorUpdate): (s: Step<Row>)
    ensures p.seguidorId.Some? && p.seguidorId == p.seguidoId ==> s == Fail(t, Unprocessable)
    ensures s.result.Ok? <==> id in t.rows && !(p.seguidorId.Some? && p.seguidorId == p.seguidoId)
    ensures s.result.Err? ==> s.table == t
    ensures s.result.Err? ==>
              s.result.status == (if p.seguidorId.Some? && p.seguidorId == p.seguidoId then Unprocessable else NotFound)
    ensures Valid(t) ==> Valid(s.table)
    ensures s.result.Ok? ==>
              && s.table == t.(rows := t.rows[id := s.result.value])
              && s.result.value == t.rows[id] + UpdateFields(p)
              && (p.seguidorId.None? && Follower in t.rows[id] ==>
                    Follower in s.result.value && s.result.value[Follower] == t.rows[id][Follower])
              && (p.seguidoId.None? && Followed in t.rows[id] ==>
                    Followed in s.result.value && s.result.value[Followed] == t.rows[id][Followed])
              && (forall k :: k != Follower && k != Followed ==>
                    (k in s.result.value <==> k in t.rows[id]) &&
                    (k in t.rows[id] ==> s.result.value[k] == t.rows[id][k]))
              && (p.seguidorId.Some? ==> Follower in s.result.value && s.result.value[Follower] == VInt(p.seguidorId.value))
              && (p.seguidoId.Some? ==> Followed in s.result.value && s.result.value[Followed] == VInt(p.seguidoId.value))
  {
    var sanitized := UpdateFields(p);
    if Follower in sanitized && Followed in sanitized && sanitized[Follower] == sanitized[Followed] then
      Fail(t, Unprocessable)
    else UpdateOne(t, id, sanitized)
  }

  /** An update that sends only one id is not checked against the other
      one, so it can turn any relation into a self-follow: a row in which
      `x` follows `y`, updated with only `seguido_id = x`, says that `x`
      follows `x`; updated with only `seguidor_id = y`, that `y` follows
      `y`. Either way the table no longer satisfies `NoSelfFollow`. */
  lemma {:induction false} PartialUpdateAllowsSelfFollow(t: Table, id: int, x: int, y: int)
    requires id in t.rows && Edge(t.rows[id]) == Some((x, y))
    ensures var s := UpdateSeguidor(t, id, SeguidorUpdate(None, Some(x)));
      && s.result.Ok?
      && Edge(s.result.value) == Some((x, x))
      && !NoSelfFollow(s.table)
    ensures var s := UpdateSeguidor(t, id, SeguidorUpdate(Some(y), None));
      && s.result.Ok?
      && Edge(s.result.value) == Some((y, y))
      && !NoSelfFollow(s.table)
  {
    var s := UpdateSeguidor(t, id, SeguidorUpdate(None, Some(x)));
    assert s.table.rows[id] == s.result.value;
    assert s.result.value[Follower] == t.rows[id][Follower];
    assert Edge(s.table.rows[id]) == Some((x, x));
    var s' := UpdateSeguidor(t, id, SeguidorUpdate(Some(y), None));
    assert s'.table.rows[id] == s'.result.value;
    assert s'.result.value[Followed] == t.rows[id][Followed];
    assert Edge(s'.table.rows[id]) == Some((y, y));
  }

  /** Nor is an update checked against the stored pairs: pointing a row at
      a pair another row already holds succeeds, and the table then holds
      that pair twice. */
  lemma {:induction false} UpdateAllowsDuplicatePair(t: Table, id: int, other: int, a: int, b: int)
    requires id in t.rows && other in t.rows && id != other
    requires Edge(t.rows[other]) == Some((a, b)) && a != b
    ensures var s := UpdateSeguidor(t, id, SeguidorUpdate(Some(a), Some(b)));
      && s.result.Ok?
      && Edge(s.table.rows[id]) == Edge(s.table.rows[other]) == Some((a, b))
      && !NoDuplicates(s.table)
  {
    var s := UpdateSeguidor(t, id, SeguidorUpdate(Some(a), Some(b)));
    assert s.table.rows[id] == s.result.value;
    assert s.table.rows[other] == t.rows[other];
    assert Edge(s.table.rows[id]) == Some((a, b));
  }

  // ----- unfollow -----

  /** `unfollow(a, b)`: delete every row of the pair and report how many
      went; when none did, answer 404 and leave the table as it was. */
  function Unfollow(t: Table, a: int, b: int): (s: Step<nat>)
    ensures s.result.Ok? <==> Follows(t, a, b)
    ensures s.result.Err? ==> s == Fail(t, NotFound)
    ensures Valid(t) ==> Valid(s.table)
    ensures s.result.Ok? ==>
              && s.result.value == |Matching(t, PairFilter(a, b))|
              && s.result.value >= 1
              && s.table.rows.Keys == t.rows.Keys - Matching(t, PairFilter(a, b))
              && !Follows(s.table, a, b)
              && s.table.rows.Keys <= t.rows.Keys
              && (forall id :: id in t.rows && Edge(t.rows[id]) != Some((a, b)) ==>
                    id in s.table.rows && s.table.rows[id] == t.rows[id])
  {
    var (t', n) := DeleteWhere(t, PairFilter(a, b));
    FollowsIffMatching(t, a, b);
    if n == 0 then Fail(t, NotFound) else Step(t', Ok(n))
  }

  /** Unfollow undoes follow: after a successful creation of the pair,
      unfollowing it deletes exactly one row and restores the relations
      that were stored before. */
  lemma UnfollowUndoesFollow(t: Table, p: SeguidorCreate)
    requires Valid(t)
    requires CreateSeguidor(t, p).result.Ok?
    ensures var s := Unfollow(CreateSeguidor(t, p).table, p.seguidorId, p.seguidoId);
      && s.result == Ok(1)
      && s.table.rows == t.rows
  {
    var (a, b) := (p.seguidorId, p.seguidoId);
    var c := CreateSeguidor(t, p).table;
    var gone := Matching(c, PairFilter(a, b));
    assert !Follows(t, a, b);
    assert gone == {t.nextId};
    var (t', n) := DeleteWhere(c, PairFilter(a, b));
    assert n == 1;
    assert t'.rows.Keys == t.rows.Keys;
    assert t'.rows == t.rows;
  }
}

=== FILE: seqs.dfy ===
/** Facts about sequence concatenation, stated once for any element type so
    that the solver never has to compare the elements themselves. */
module Seqs {
  /** Concatenation is associative. */
  lemma ConcatAssoc<T>(x: seq<T>, y: seq<T>, z: seq<T>)
    ensures x + (y + z) == (x + y) + z
  {
  }

  /** The head and the tail of a concatenation with a non-empty left part. */
  lemma ConcatHead<T>(a: seq<T>, b: seq<T>)
    requires |a| > 0
    ensures (a + b)[0] == a[0]
    ensures (a + b)[1..] == a[1..] + b
  {
  }

  /** The empty sequence is a unit of concatenation. */
  lemma ConcatEmpty<T>(a: seq<T>)
    ensures [] + a == a && a + [] == a
  {
  }
}

=== FILE: store.dfy ===
/** The record store behind every repository: one PostgREST table as a map
    from row id to row. Reads return a row or nothing, an insert returns the
    stored row, an update by id returns the updated rows (an empty list
    when the id matches nothing), and a filtered delete returns how many
    rows it removed.

    The module also holds the two shapes every service repeats: `get_x`
    answers 404 for a missing row, and `update_x` answers 404 when the
    update returns an empty list.
 */
module Store {
  import opened Wrappers
  import opened Rows

  datatype Table = Table(rows: map<int, Row>, nextId: int)

  /** Ids are assigned in increasing order, so the next id is fresh. */
  predicate Valid(t: Table) {
    forall id :: id in t.rows ==> id < t.nextId
  }

  /** The outcome of a service call: the table afterwards and the reply. */
  datatype Step<T> = Step(table: Table, result: Result<T>)

  /** A failed step that wrote nothing. */
  function Fail<T>(t: Table, s: Status): (r: Step<T>)
    ensures r.table == t && r.result.Err?
  {
    Step(t, Err(s))
  }

  function Lookup(t: Table, id: int): Option<Row> {
    if id in t.rows then Some(t.rows[id]) else None
  }

  /** Insert `fields` as a new row under a fresh id; returns the table and the stored row. */
  function Insert(t: Table, fields: Row): (p: (Table, Row))
    requires Valid(t)
    ensures t.nextId !in t.rows
    ensures Valid(p.0)
    ensures p.1 == fields["id" := VInt(t.nextId)]
    ensures p.0.rows == t.rows[t.nextId := p.1]
  {
    var row := fields["id" := VInt(t.nextId)];
    (Table(t.rows[t.nextId := row], t.nextId + 1), row)
  }

  /** `PATCH ?id=eq.{id}`: merge `fields` into the row and return the
      updated rows, of which there is one when the id exists and none
      otherwise. */
  function Patch(t: Table, id: int, fields: Row): (p: (Table, seq<Row>))
    ensures Valid(t) ==> Valid(p.0)
    ensures id in t.rows ==> p.1 == [t.rows[id] + fields] && p.0 == t.(rows := t.rows[id := p.1[0]])
    ensures id !in t.rows ==> p == (t, [])
  {
    if id in t.rows then
      var row := t.rows[id] + fields;
      (t.(rows := t.rows[id := row]), [row])
    else (t, [])
  }

  /** Ids of the rows a filter selects. */
  function Matching(t: Table, p: Row -> bool): (ids: set<int>)
    ensures forall id :: id in ids <==> id in t.rows && p(t.rows[id])
  {
    set id | id in t.rows && p(t.rows[id])
  }

  /** `DELETE` with a filter: remove the selected rows and count them. */
  function DeleteWhere(t: Table, p: Row -> bool): (r: (Table, nat))
    ensures Valid(t) ==> Valid(r.0)
    ensures r.0.nextId == t.nextId
    ensures r.0.rows.Keys == t.rows.Keys - Matching(t, p)
    ensures forall id :: id in r.0.rows ==> r.0.rows[id] == t.rows[id]
    ensures r.1 == |Matching(t, p)|
  {
    var gone := Matching(t, p);
    (t.(rows := map id | id in t.rows && id !in gone :: t.rows[id]), |gone|)
  }

  /** The `get_x` shape shared by every service: the stored row, or 404. */
  function Get(t: Table, id: int): (r: Result<Row>)
    ensures r.Ok? <==> id in t.rows
    ensures r.Ok? ==> r.value == t.rows[id]
    ensures r.Err? ==> r.status == NotFound
  {
    if id in t.rows then Ok(t.rows[id]) else Err(NotFound)
  }

  /** The `update_x` shape shared by every service: patch the row and
      return it, or answer 404, with no write, when nothing matched. */
  function UpdateOne(t: Table, id: int, fields: Row): (s: Step<Row>)
    ensures Valid(t) ==> Valid(s.table)
    ensures s.result.Ok? <==> id in t.rows
    ensures s.result.Err? ==> s == Fail(t, NotFound)
    ensures s.result.Ok? ==>
              && s.result.value == t.rows[id] + fields
              && s.table == t.(rows := t.rows[id := t.rows[id] + fields])
  {
    var (t', updated) := Patch(t, id, fields);
    if |updated| == 0 then Step(t', Err(NotFound)) else Step(t', Ok(updated[0]))
  }

  /** A successful update changes only the named row, and in that row only
      the columns it was given. */
  lemma UpdateOneFrame(t: Table, id: int, fields: Row)
    requires UpdateOne(t, id, fields).result.Ok?
    ensures var t' := UpdateOne(t, id, fields).table;
      && t'.rows.Keys == t.rows.Keys
      && (forall other :: other in t.rows && other != id ==> t'.rows[other] == t.rows[other])
      && (forall k :: k in t.rows[id] && k !in fields ==> t'.rows[id][k] == t.rows[id][k])
      && (forall k :: k in fields ==> t'.rows[id][k] == fields[k])
  {
  }
}

=== FILE: supabase_client.dfy ===
/** The two pure helpers of the PostgREST client: the request headers and
    the URL of a table's REST endpoint. The HTTP methods and the shared
    connection are not modelled.
 */
module SupabaseClient {
  import opened Wrappers
  import Text

  /** The table used when a caller names none (`SUPABASE_TABLE`'s default). */
  const DefaultTable: string := "Usuarios"

  const RestPath: string := "/rest/v1/"

  /** `supabase_headers()` for the configured anon key. */
  function Headers(anonKey: string): (h: map<string, string>)
    ensures h.Keys == {"apikey", "Authorization", "Content-Type", "Prefer"}
    ensures h["apikey"] == anonKey
    ensures h["Authorization"] == "Bearer " + anonKey
    ensures h["Content-Type"] == "application/json"
    ensures h["Prefer"] == "return=representation"
  {
    map[
      "apikey" := anonKey,
      "Authorization" := "Bearer " + anonKey,
      "Content-Type" := "application/json",
      "Prefer" := "return=representation"
    ]
  }

  /** Both credential headers carry the same key: the bearer token is the apikey. */
  lemma BearerCarriesApiKey(anonKey: string)
    ensures var h := Headers(anonKey);
      |h["Authorization"]| == 7 + |h["apikey"]| && h["Authorization"][7..] == h["apikey"]
  {
  }

  /** `table_url(table_name)` with the configured base URL and default table:
      the base without trailing slashes, then `/rest/v1/`, then the table.
      A missing or empty table name falls back to the default table. */
  function TableUrl(baseUrl: string, tableName: Option<string>, defaultTable: string): (url: string)
    ensures var table := if tableName.None? || tableName.value == "" then defaultTable else tableName.value;
      && |url| >= |RestPath| + |table|
      && url[|url| - |table|..] == table
      && url[|url| - |table| - |RestPath|..|url| - |table|] == RestPath
  {
    var base := Text.TrimEndChar(baseUrl, '/');
    var table := if tableName.None? || tableName.value == "" then defaultTable else tableName.value;
    base + RestPath + table
  }

  /** The URL splits back into the base without its trailing slashes, the
      REST path and the table; the base part never ends in a slash, so the
      joint never doubles one. */
  lemma TableUrlParts(baseUrl: string, tableName: Option<string>, defaultTable: string)
    ensures var url := TableUrl(baseUrl, tableName, defaultTable);
      exists base, table ::
        && url == base + RestPath + table
        && |base| <= |baseUrl| && baseUrl[..|base|] == base
        && (base == [] || base[|base| - 1] != '/')
        && (forall i :: |base| <= i < |baseUrl| ==> baseUrl[i] == '/')
        && table == (if tableName.None? || tableName.value == "" then defaultTable else tableName.value)
  {
    var base := Text.TrimEndChar(baseUrl, '/');
    var table := if tableName.None? || tableName.value == "" then defaultTable else tableName.value;
    assert TableUrl(baseUrl, tableName, defaultTable) == base + RestPath + table;
  }

  /** Trailing slashes on the base URL do not change the table URL:
      "u" and "u///" give the same result. */
  lemma TableUrlIgnoresTrailingSlashes(baseUrl: string, k: nat, tableName: Option<string>, defaultTable: string)
    ensures TableUrl(baseUrl + Text.Repeat('/', k), tableName, defaultTable)
         == TableUrl(baseUrl, tableName, defaultTable)
  {
    Text.TrimEndCharIgnoresTrailing(baseUrl, '/', k);
  }

  /** A worked example with the default table. */
  lemma TableUrlExample()
    ensures TableUrl("https://x.supabase.co/", None, DefaultTable) == "https://x.supabase.co/rest/v1/Usuarios"
    ensures TableUrl("https://x.supabase.co//", Some(""), DefaultTable) == "https://x.supabase.co/rest/v1/Usuarios"
    ensures TableUrl("https://x.supabase.co", Some("Reportes"), DefaultTable) == "https://x.supabase.co/rest/v1/Reportes"
  {
    var b := "https://x.supabase.co";
    assert b[|b| - 1] == 'o';
    assert Text.TrimEndChar(b, '/') == b;
    assert b + RestPath + DefaultTable == "https://x.supabase.co/rest/v1/Usuarios";
    assert b + RestPath + "Reportes" == "https://x.supabase.co/rest/v1/Reportes";
    assert b + "/" == b + Text.Repeat('/', 1);
    assert b + "//" == b + Text.Repeat('/', 2);
    assert "https://x.supabase.co/" == b + "/";
    assert "https://x.supabase.co//" == b + "//";
    assert TableUrl(b, Some(""), DefaultTable) == b + RestPath + DefaultTable;
    TableUrlIgnoresTrailingSlashes(b, 1, None, DefaultTable);
    TableUrlIgnoresTrailingSlashes(b, 2, Some(""), DefaultTable);
  }
}

=== FILE: text.dfy ===
/** Python string primitives the services rely on: `str.strip()`,
    `str.rstrip(c)`, `str.isdigit()`, `int()` on a digit string and
    `str.split(sep)`, on strings modelled as `seq<char>`.
 */
module Text {

  /** Python's `str.isspace()` for one character: the Unicode characters
      of bidirectional class WS, B or S, or of category Zs. */
  predicate IsSpace(c: char) {
    || c == ' '
    || ('\t' <= c <= '\r')
    || ('\U{1C}' <= c <= '\U{1F}')
    || c == '\U{85}'
    || c == '\U{A0}'
    || c == '\U{1680}'
    || ('\U{2000}' <= c <= '\U{200A}')
    || c == '\U{2028}'
    || c == '\U{2029}'
    || c == '\U{202F}'
    || c == '\U{205F}'
    || c == '\U{3000}'
  }

  /** A string that `strip()` empties: every character is whitespace. */
  predicate IsBlank(s: string) {
    forall i :: 0 <= i < |s| ==> IsSpace(s[i])
  }

  /** `s.lstrip()`: the longest suffix of `s` that does not start with whitespace. */
  function TrimStart(s: string): (r: string)
    ensures |r| <= |s| && r == s[|s| - |r|..]
    ensures r == [] || !IsSpace(r[0])
    ensures forall i :: 0 <= i < |s| - |r| ==> IsSpace(s[i])
  {
    if |s| > 0 && IsSpace(s[0]) then TrimStart(s[1..]) else s
  }

  /** `s.rstrip()`: the longest prefix of `s` that does not end with whitespace. */
  function TrimEnd(s: string): (r: string)
    ensures |r| <= |s| && r == s[..|r|]
    ensures r == [] || !IsSpace(r[|r| - 1])
    ensures forall i :: |r| <= i < |s| ==> IsSpace(s[i])
  {
    if |s| > 0 && IsSpace(s[|s| - 1]) then TrimEnd(s[..|s| - 1]) else s
  }

  /** `s.strip()`. */
  function Strip(s: string): string {
    TrimEnd(TrimStart(s))
  }

  /** Where `strip()` starts cutting from the right. */
  function StripEnd(s: string): nat {
    |s| - |TrimStart(s)| + |Strip(s)|
  }

  lemma {:induction false} StripSlice(s: string)
    ensures |s| - |TrimStart(s)| <= StripEnd(s) <= |s|
    ensures Strip(s) == s[|s| - |TrimStart(s)|..StripEnd(s)]
  {
    var t := TrimStart(s);
    assert t == s[|s| - |t|..];
  }

  lemma {:induction false} StripTrailing(s: string)
    ensures forall k :: StripEnd(s) <= k < |s| ==> IsSpace(s[k])
  {
    var t := TrimStart(s);
    var i := |s| - |t|;
    forall k | StripEnd(s) <= k < |s|
      ensures IsSpace(s[k])
    {
      assert s[k] == t[k - i];
    }
  }

  lemma {:induction false} StripEnds(s: string)
    ensures Strip(s) == [] || (!IsSpace(Strip(s)[0]) && !IsSpace(Strip(s)[|Strip(s)| - 1]))
  {
    var t := TrimStart(s);
    if Strip(s) != [] {
      assert Strip(s)[0] == t[0];
    }
  }

  /** `strip()` keeps a contiguous infix of its input and removes only
      whitespace around it; what remains neither starts nor ends with
      whitespace. */
  lemma {:induction false} StripIsInfix(s: string)
    ensures var i := |s| - |TrimStart(s)|;
      && 0 <= i <= StripEnd(s) <= |s|
      && Strip(s) == s[i..StripEnd(s)]
      && (forall k :: 0 <= k < i ==> IsSpace(s[k]))
      && (forall k :: StripEnd(s) <= k < |s| ==> IsSpace(s[k]))
    ensures Strip(s) == [] || (!IsSpace(Strip(s)[0]) && !IsSpace(Strip(s)[|Strip(s)| - 1]))
  {
    StripSlice(s);
    StripTrailing(s);
    StripEnds(s);
  }

  /** `strip()` gives the empty string exactly on blank input. */
  lemma {:induction false} StripEmptyIffBlank(s: string)
    ensures Strip(s) == [] <==> IsBlank(s)
  {
    if Strip(s) != [] {
      StripIsInfix(s);
    }
  }

  /** A string without whitespace is its own `strip()`. */
  lemma {:induction false} StripNoSpace(s: string)
    requires forall i :: 0 <= i < |s| ==> !IsSpace(s[i])
    ensures Strip(s) == s
  {
  }

  /** `strip()` is idempotent. */
  lemma {:induction false} StripIdempotent(s: string)
    ensures Strip(Strip(s)) == Strip(s)
  {
    var r := Strip(s);
    StripIsInfix(s);
    if r != [] {
      assert TrimStart(r) == r;
      assert TrimEnd(r) == r;
    }
  }

  /** `s.rstrip(c)`: `s` with every trailing `c` removed. */
  function TrimEndChar(s: string, c: char): (r: string)
    ensures |r| <= |s| && r == s[..|r|]
    ensures r == [] || r[|r| - 1] != c
    ensures forall i :: |r| <= i < |s| ==> s[i] == c
  {
    if |s| > 0 && s[|s| - 1] == c then TrimEndChar(s[..|s| - 1], c) else s
  }

  /** Appending more `c` does not change `rstrip(c)`. */
  lemma {:induction false} TrimEndCharIgnoresTrailing(s: string, c: char, k: nat)
    ensures TrimEndChar(s + Repeat(c, k), c) == TrimEndChar(s, c)
  {
    if k > 0 {
      var t := s + Repeat(c, k);
      assert t[..|t| - 1] == s + Repeat(c, k - 1);
      TrimEndCharIgnoresTrailing(s, c, k - 1);
    } else {
      assert s + Repeat(c, 0) == s;
    }
  }

  function Repeat(c: char, k: nat): (r: string)
    ensures |r| == k && forall i :: 0 <= i < k ==> r[i] == c
  {
    if k == 0 then [] else Repeat(c, k - 1) + [c]
  }

  /** An ASCII decimal digit. */
  predicate IsDigit(c: char) {
    '0' as int <= c as int <= '9' as int
  }

  /** `s.isdigit()` restricted to ASCII digits: non-empty and all digits. */
  predicate IsDigits(s: string) {
    |s| > 0 && forall i :: 0 <= i < |s| ==> IsDigit(s[i])
  }

  /** The value of a string of decimal digits, as `int()` computes it. */
  function DigitsValue(s: string): nat
    requires forall i :: 0 <= i < |s| ==> IsDigit(s[i])
  {
    if |s| == 0 then 0
    else DigitsValue(s[..|s| - 1]) * 10 + DigitValue(s[|s| - 1])
  }

  function DigitValue(c: char): nat
    requires IsDigit(c)
  {
    c as int - '0' as int
  }

  function DigitChar(d: nat): char
    requires d < 10
  {
    ('0' as int + d) as char
  }

  /** The decimal rendering of `n` without sign or leading zeros, as `str(n)`. */
  function Decimal(n: nat): (r: string)
    ensures IsDigits(r)
  {
    if n < 10 then [DigitChar(n)] else Decimal(n / 10) + [DigitChar(n % 10)]
  }

  /** `int(str(n)) == n`. */
  lemma {:induction false} DecimalRoundTrip(n: nat)
    ensures DigitsValue(Decimal(n)) == n
  {
    if n >= 10 {
      var r := Decimal(n);
      assert r[..|r| - 1] == Decimal(n / 10);
      DecimalRoundTrip(n / 10);
    }
  }

  /** `s.split(sep)`: the maximal pieces between occurrences of `sep`, in order. */
  function Split(s: string, sep: char): (r: seq<string>)
    ensures |r| >= 1
    ensures forall i :: 0 <= i < |r| ==> sep !in r[i]
  {
    if |s| == 0 then [""]
    else
      var rest := Split(s[1..], sep);
      if s[0] == sep then [""] + rest
      else [[s[0]] + rest[0]] + rest[1..]
  }

  /** `sep.join(xs)`. */
  function Join(xs: seq<string>, sep: char): string
    requires |xs| >= 1
  {
    if |xs| == 1 then xs[0] else xs[0] + [sep] + Join(xs[1..], sep)
  }

  /** Joining the pieces of a split gives the string back. */
  lemma {:induction false} JoinSplit(s: string, sep: char)
    ensures Join(Split(s, sep), sep) == s
  {
    if |s| > 0 {
      var rest := Split(s[1..], sep);
      JoinSplit(s[1..], sep);
      if s[0] == sep {
        assert ([""] + rest)[1..] == rest;
      } else {
        var r := [[s[0]] + rest[0]] + rest[1..];
        if |rest| > 1 {
          assert r[1..] == rest[1..];
        }
      }
    }
  }

  /** A string without `sep` splits into itself. */
  lemma {:induction false} SplitWithoutSep(a: string, sep: char)
    requires sep !in a
    ensures Split(a, sep) == [a]
  {
    if |a| > 0 {
      SplitWithoutSep(a[1..], sep);
      assert [a[0]] + a[1..] == a;
    }
  }

  /** The first piece ends at the first separator. */
  lemma {:induction false} SplitAtFirstSep(a: string, b: string, sep: char)
    requires sep !in a
    ensures Split(a + [sep] + b, sep) == [a] + Split(b, sep)
  {
    var s := a + [sep] + b;
    if |a| == 0 {
      assert s[1..] == b;
    } else {
      assert s[1..] == a[1..] + [sep] + b;
      SplitAtFirstSep(a[1..], b, sep);
      assert [a[0]] + a[1..] == a;
    }
  }

  /** Splitting a join of separator-free pieces gives the pieces back. */
  lemma {:induction false} SplitJoin(xs: seq<string>, sep: char)
    requires |xs| >= 1
    requires forall i :: 0 <= i < |xs| ==> sep !in xs[i]
    ensures Split(Join(xs, sep), sep) == xs
  {
    if |xs| == 1 {
      SplitWithoutSep(xs[0], sep);
    } else {
      SplitJoin(xs[1..], sep);
      SplitAtFirstSep(xs[0], Join(xs[1..], sep), sep);
      assert [xs[0]] + xs[1..] == xs;
    }
  }
}

=== FILE: users_service.dfy ===
/** The users service: creating a user after a case-insensitive lookup of
    the name (any match is refused with 400), reading one, and a partial
    update that forwards the non-null fields with no duplicate check.

    The lookup is the PostgREST filter `user=ilike.<name>`, with the name
    sent unescaped: `%` and `*` match any run of characters and `_` any
    single character, every other character compares up to case. Case
    folding is a parameter `fold`.
 */
module UsersService {
  import opened Wrappers
  import opened Rows
  import opened Store

  const UserCol: string := "user"

  /** `UserCreate`: a name of 3 to 50 characters, optional email and password. */
  datatype UserCreate = UserCreate(user: string, email: Option<string>, psswd: Option<string>)

  /** `UserUpdate`: every field optional. */
  datatype UserUpdate = UserUpdate(user: Option<string>, email: Option<string>, psswd: Option<string>)

  /** The name length `UserCreate` accepts. */
  predicate NameLengthOk(name: string) {
    3 <= |name| <= 50
  }

  /** Validate a JSON body as a `UserCreate`. */
  function ParseUserCreate(j: Row): (r: Result<UserCreate>)
    ensures r.Ok? ==> UserCol in j && j[UserCol] == VStr(r.value.user) && NameLengthOk(r.value.user)
    ensures UserCol in j && j[UserCol].VStr? && !NameLengthOk(j[UserCol].s) ==> r == Err(Unprocessable)
  {
    var user :- RequiredStr(j, UserCol);
    if !NameLengthOk(user) then Err(Unprocessable)
    else
      var email :- OptionalStr(j, "email", None);
      var psswd :- OptionalStr(j, "psswd", None);
      Ok(UserCreate(user, email, psswd))
  }

  /** `model_dump()` of a `UserCreate`. */
  function DumpUserCreate(p: UserCreate): (d: Row)
    ensures d.Keys == {UserCol, "email", "psswd"}
    ensures d[UserCol] == VStr(p.user) && d["email"] == StrValue(p.email) && d["psswd"] == StrValue(p.psswd)
  {
    map[UserCol := VStr(p.user), "email" := StrValue(p.email), "psswd" := StrValue(p.psswd)]
  }

  lemma UserCreateRoundTrip(p: UserCreate)
    requires NameLengthOk(p.user)
    ensures ParseUserCreate(DumpUserCreate(p)) == Ok(p)
  {
    var d := DumpUserCreate(p);
    assert RequiredStr(d, UserCol) == Ok(p.user);
    assert OptionalStr(d, "email", None) == Ok(p.email);
    assert OptionalStr(d, "psswd", None) == Ok(p.psswd);
  }

  // ----- the ilike lookup -----

  type Fold = char -> char

  predicate IsWildcard(c: char) {
    c == '%' || c == '*' || c == '_'
  }

  /** `s ilike p`: the pattern matches the whole string. */
  function ILike(p: string, s: string, fold: Fold): bool
    decreases |p| + |s|
  {
    if p == [] then s == []
    else if p[0] == '%' || p[0] == '*' then ILike(p[1..], s, fold) || (s != [] && ILike(p, s[1..], fold))
    else if s == [] then false
    else if p[0] == '_' then ILike(p[1..], s[1..], fold)
    else fold(p[0]) == fold(s[0]) && ILike(p[1..], s[1..], fold)
  }

  /** Equal up to case. */
  predicate FoldEq(a: string, b: string, fold: Fold) {
    |a| == |b| && forall i :: 0 <= i < |a| ==> fold(a[i]) == fold(b[i])
  }

  /** A name matches every name equal to it up to case, whatever characters it holds. */
  lemma {:induction false} ILikeFoldEq(p: string, s: string, fold: Fold)
    requires FoldEq(p, s, fold)
    ensures ILike(p, s, fold)
    decreases |p|
  {
    if p != [] {
      assert FoldEq(p[1..], s[1..], fold) by {
        forall i | 0 <= i < |p| - 1 ensures fold(p[1..][i]) == fold(s[1..][i]) {
          assert fold(p[i + 1]) == fold(s[i + 1]);
        }
      }
      ILikeFoldEq(p[1..], s[1..], fold);
      if p[0] == '%' || p[0] == '*' {
        ILikeStarOne(p, s, fold);
      }
    }
  }

  /** A leading `%` can stand for one character. */
  lemma ILikeStarOne(p: string, s: string, fold: Fold)
    requires p != [] && (p[0] == '%' || p[0] == '*') && s != []
    requires ILike(p[1..], s[1..], fold)
    ensures ILike(p, s, fold)
  {
  }

  /** Without wildcards the lookup is case-insensitive equality. */
  lemma {:induction false} ILikeLiteral(p: string, s: string, fold: Fold)
    requires forall i :: 0 <= i < |p| ==> !IsWildcard(p[i])
    ensures ILike(p, s, fold) <==> FoldEq(p, s, fold)
    decreases |p|
  {
    if p == [] {
    } else if s == [] {
    } else {
      ILikeLiteral(p[1..], s[1..], fold);
      assert !IsWildcard(p[0]);
      if FoldEq(p, s, fold) {
        assert fold(p[0]) == fold(s[0]);
        assert FoldEq(p[1..], s[1..], fold) by {
          forall i | 0 <= i < |p| - 1 ensures fold(p[1..][i]) == fold(s[1..][i]) {
            assert fold(p[i + 1]) == fold(s[i + 1]);
          }
        }
      }
      if ILike(p, s, fold) {
        assert FoldEq(p[1..], s[1..], fold);
        forall i | 0 <= i < |p| ensures fold(p[i]) == fold(s[i]) {
          if i > 0 {
            assert fold(p[1..][i - 1]) == fold(s[1..][i - 1]);
          }
        }
      }
    }
  }

  // ----- create_user -----

  /** A stored row whose name the lookup for `name` returns. */
  predicate NameMatches(row: Row, name: string, fold: Fold) {
    UserCol in row && row[UserCol].VStr? && ILike(name, row[UserCol].s, fold)
  }

  /** `get_by_username_ci(name)` returns a row. */
  predicate Taken(t: Table, name: string, fold: Fold) {
    exists id :: id in t.rows && NameMatches(t.rows[id], name, fold)
  }

  function NameFilter(name: string, fold: Fold): Row -> bool {
    row => NameMatches(row, name, fold)
  }

  lemma TakenIffMatching(t: Table, name: string, fold: Fold)
    ensures Taken(t, name, fold) <==> Matching(t, NameFilter(name, fold)) != {}
  {
    var m := Matching(t, NameFilter(name, fold));
    if Taken(t, name, fold) {
      var id :| id in t.rows && NameMatches(t.rows[id], name, fold);
      assert id in m;
    }
    if !Taken(t, name, fold) {
      assert forall id :: id !in m;
      assert m == {};
    }
  }

  /** `create_user`: a name the lookup finds is refused with 400 and
      nothing is written; otherwise the name, email and password are
      stored under a new id. */
  function CreateUser(t: Table, p: UserCreate, fold: Fold): (s: Step<Row>)
    requires Valid(t)
    ensures Taken(t, p.user, fold) ==> s == Fail(t, BadRequest)
    ensures s.result.Ok? <==> !Taken(t, p.user, fold)
    ensures s.result.Ok? ==>
              && Valid(s.table)
              && s.table.rows == t.rows[t.nextId := s.result.value]
              && s.result.value == DumpUserCreate(p)["id" := VInt(t.nextId)]
  {
    TakenIffMatching(t, p.user, fold);
    if Matching(t, NameFilter(p.user, fold)) != {} then Fail(t, BadRequest)
    else
      var raw := DumpUserCreate(p);
      var sanitized := Restrict(raw, {UserCol, "email", "psswd"});
      assert sanitized == raw;
      var (t', row) := Insert(t, sanitized);
      Step(t', Ok(row))
  }

  /** A name already stored, in any case, is refused. */
  lemma CreateRefusesExistingName(t: Table, p: UserCreate, fold: Fold, id: int, stored: string)
    requires Valid(t)
    requires id in t.rows && UserCol in t.rows[id] && t.rows[id][UserCol] == VStr(stored)
    requires FoldEq(p.user, stored, fold)
    ensures CreateUser(t, p, fold) == Fail(t, BadRequest)
  {
    ILikeFoldEq(p.user, stored, fold);
    assert NameMatches(t.rows[id], p.user, fold);
  }

  /** For a name without wildcards the check is exact: creation succeeds
      iff no stored name equals it up to case. */
  lemma CreateLiteralName(t: Table, p: UserCreate, fold: Fold)
    requires Valid(t)
    requires forall i :: 0 <= i < |p.user| ==> !IsWildcard(p.user[i])
    ensures CreateUser(t, p, fold).result.Ok? <==>
              forall id :: id in t.rows && UserCol in t.rows[id] && t.rows[id][UserCol].VStr? ==>
                !FoldEq(p.user, t.rows[id][UserCol].s, fold)
  {
    forall id | id in t.rows && UserCol in t.rows[id] && t.rows[id][UserCol].VStr?
      ensures NameMatches(t.rows[id], p.user, fold) <==> FoldEq(p.user, t.rows[id][UserCol].s, fold)
    {
      ILikeLiteral(p.user, t.rows[id][UserCol].s, fold);
    }
  }

  /** Creating the same user twice fails the second time. */
  lemma CreateTwiceRefused(t: Table, p: UserCreate, fold: Fold)
    requires Valid(t)
    requires CreateUser(t, p, fold).result.Ok?
    ensures CreateUser(CreateUser(t, p, fold).table, p, fold) == Fail(CreateUser(t, p, fold).table, BadRequest)
  {
    var s := CreateUser(t, p, fold);
    assert s.table.rows[t.nextId][UserCol] == VStr(p.user);
    assert FoldEq(p.user, p.user, fold);
    CreateRefusesExistingName(s.table, p, fold, t.nextId, p.user);
  }

  /** The name is sent unescaped, so `_` in a new name matches any
      character: "a_c" is refused when "abc" exists. */
  lemma WildcardNameRefused(fold: Fold)
    ensures var t := Table(map[1 := map["id" := VInt(1), UserCol := VStr("abc")]], 2);
      CreateUser(t, UserCreate("a_c", None, None), fold) == Fail(t, BadRequest)
  {
    var t := Table(map[1 := map["id" := VInt(1), UserCol := VStr("abc")]], 2);
    assert ILike("c", "c", fold) by {
      assert ILike("", "", fold);
    }
    assert ILike("_c", "bc", fold) by {
      assert "_c"[1..] == "c" && "bc"[1..] == "c";
    }
    assert ILike("a_c", "abc", fold) by {
      assert "a_c"[1..] == "_c" && "abc"[1..] == "bc";
    }
    assert NameMatches(t.rows[1], "a_c", fold);
  }

  /** `get_user`: the stored user, or 404. */
  function GetUser(t: Table, id: int): (r: Result<Row>)
    ensures r.Ok? <==> id in t.rows
    ensures r.Ok? ==> r.value == t.rows[id]
    ensures r.Err? ==> r.status == NotFound
  {
    Store.Get(t, id)
  }

  // ----- update_user -----

  /** `model_dump()` of a `UserUpdate`. */
  function DumpUserUpdate(p: UserUpdate): (d: Row)
    ensures d.Keys == {UserCol, "email", "psswd"}
    ensures d[UserCol] == StrValue(p.user) && d["email"] == StrValue(p.email) && d["psswd"] == StrValue(p.psswd)
  {
    map[UserCol := StrValue(p.user), "email" := StrValue(p.email), "psswd" := StrValue(p.psswd)]
  }

  /** `update_user`: patch the non-null fields into the row, or 404. The
      name is not looked up first. */
  function UpdateUser(t: Table, id: int, p: UserUpdate): (s: Step<Row>)
    ensures s.result.Ok? <==> id in t.rows
    ensures s.result.Err? ==> s == Fail(t, NotFound)
    ensures Valid(t) ==> Valid(s.table)
    ensures s.result.Ok? ==>
              && s.table == t.(rows := t.rows[id := s.result.value])
              && (p.user.Some? ==> UserCol in s.result.value && s.result.value[UserCol] == VStr(p.user.value))
              && (p.user.None? && UserCol in t.rows[id] ==>
                    UserCol in s.result.value && s.result.value[UserCol] == t.rows[id][UserCol])
              && (p.email.Some? ==> "email" in s.result.value && s.result.value["email"] == VStr(p.email.value))
              && (p.email.None? && "email" in t.rows[id] ==>
                    "email" in s.result.value && s.result.value["email"] == t.rows[id]["email"])
              && (p.psswd.Some? ==> "psswd" in s.result.value && s.result.value["psswd"] == VStr(p.psswd.value))
              && (p.psswd.None? && "psswd" in t.rows[id] ==>
                    "psswd" in s.result.value && s.result.value["psswd"] == t.rows[id]["psswd"])
              && (forall k :: k != UserCol && k != "email" && k != "psswd" ==>
                    (k in s.result.value <==> k in t.rows[id]) &&
                    (k in t.rows[id] ==> s.result.value[k] == t.rows[id][k]))
  {
    var raw := DumpUserUpdate(p);
    UpdateOne(t, id, RestrictGiven(raw, {UserCol, "email", "psswd"}))
  }

  /** Update does not repeat the duplicate check: any user can be renamed
      to the name another user holds, though creation would refuse that
      name, and the two rows then carry the same name. */
  lemma {:induction false} UpdateAllowsDuplicateName(t: Table, id: int, other: int, fold: Fold)
    requires Valid(t) && id in t.rows && other in t.rows && id != other
    requires UserCol in t.rows[other] && t.rows[other][UserCol].VStr?
    ensures CreateUser(t, UserCreate(t.rows[other][UserCol].s, None, None), fold) == Fail(t, BadRequest)
    ensures var s := UpdateUser(t, id, UserUpdate(Some(t.rows[other][UserCol].s), None, None));
      && s.result.Ok?
      && s.table.rows[other] == t.rows[other]
      && s.table.rows[id][UserCol] == s.table.rows[other][UserCol]
  {
    var name := t.rows[other][UserCol].s;
    CreateRefusesExistingName(t, UserCreate(name, None, None), fold, other, name);
    var s := UpdateUser(t, id, UserUpdate(Some(name), None, None));
    assert s.table.rows[id] == s.result.value;
    assert s.result.value[UserCol] == VStr(name);
  }
}

=== FILE: wrappers.dfy ===
/** Failure-compatible wrappers shared by every module of the model.

    `Status` is the HTTP error a service raises: the FastAPI `HTTPException`
    status codes the services use, plus `InternalError` for an exception the
    code does not catch (a `TypeError` or `KeyError` that FastAPI turns
    into a 500 response).
 */
module Wrappers {

  datatype Option<+T> = None | Some(value: T) {
    function GetOr(default: T): T {
      match this
      case Some(v) => v
      case None => default
    }
  }

  datatype Status = BadRequest | NotFound | Conflict | Unprocessable | InternalError

  /** The numeric HTTP status code of each error. */
  function Code(s: Status): (c: int)
    ensures 400 <= c < 600
    ensures c < 500 <==> !s.InternalError?
  {
    match s
    case BadRequest => 400
    case NotFound => 404
    case Conflict => 409
    case Unprocessable => 422
    case InternalError => 500
  }

  /** A service call either returns a value or raises an HTTP error. */
  datatype Result<+T> = Ok(value: T) | Err(status: Status) {
    predicate IsFailure() {
      Err?
    }

    function PropagateFailure<U>(): Result<U>
      requires Err?
    {
      Err(status)
    }

    function Extract(): T
      requires Ok?
    {
      value
    }
  }
}
